=== FILE: README.md ===
# JsValidation — a Dafny model of the jQuery form-validation plugin

JsValidation is a jQuery plugin. It binds to a form and reads a per-field
configuration of *rules* (`required`, `number`, `email`, `noSymbols`,
`maxLength`, `minLength`, `rangeLength`). In its newest iteration it also
reads remote *verifications* (an `ajax` url). It stores one record per rule
on each field, with a `valid` flag and a message. When a field changes, or
the form is submitted, it re-evaluates those records. It keeps an
`errorList` of the ids of failing fields, and it blocks submission while that
list is non-empty.

The repository has three iterations of the plugin. Each is modelled in its
own module:

| module | file | what differs |
|---|---|---|
| `Latest` | `JsValidation/js/jquery.validation.js` | de-duplicating `addError`; verifications through one shared `verify.ajax` request slot; change/keyup handlers gated by `onchange`; submit skipped entirely under `debug` |
| `Legacy` | `JsValidation/js/jquery.validation-0.2.0.js` | `addError` appends on every failing rule; `validation` updates the error list twice per field; submit handler calls `preventDefault` under `debug` but still validates |
| `Stub` | `JsValidation/jquery.validation-0.2.0.js` | `checkValidity` does nothing; setup stops at the first non-form element; handlers are chosen by comparing with the first entry of the element lists (`=== 0`) |

Shared modules:

- `Results`: `Option`, `Result`, and `Run`. A `Run` is the state reached
  together with the fault, if a `TypeError` escaped. The plugin mutates
  records in place, so the effects made before a throw survive it.
- `Strings`: `$.trim`, UTF-16 `length`, carriage-return stripping, and the
  decimal rendering and parsing used for numeric parameters.
- `Records`: option objects as ordered tables, and the rule and verification
  records built by `setValidationRules` and `setVerificationRules`.
- `Builtins`: the seven built-in rules, as predicates on strings, and the
  dispatch `this.validate[name]`.
- `ErrorLists`: `indexOf`, `removeError`, `formValid`, and the choice of
  the displayed message.
- `Forms`: elements, merged options, events and bindings.
- `Evaluation`: the rule loop of `checkValidity`, which stores each verdict
  back into its record and stops at the first throw.

The page is modelled as data: the DOM as a map from id to element, and
jQuery's `.data()` as a map from id to the stored records. Ajax completion
is modelled as explicit calls to `Latest.Respond` and `Latest.Fail`, so any
interleaving of keystrokes and responses can be stated.

## Model

Source paths are relative to the repository root.

| member | source | states |
|---|---|---|
| Builtins.RequiredIff | JsValidation/js/jquery.validation.js:410-412 | `required` holds exactly when the value has a non-whitespace character; whitespace-only and empty values fail |
| Builtins.NumberMatchesPattern | JsValidation/js/jquery.validation.js:414-416 | the hand-written `number` recogniser accepts exactly the language of the regular expression: optional `-`, then plain digits or comma groups of three with a 1-3 digit head, then an optional `.digits` fraction |
| Builtins.NumberAcceptsDegenerate | JsValidation/js/jquery.validation.js:414-416 | because every part of the expression is optional, `""`, `"-"` and `".5"` are accepted as numbers |
| Builtins.NumberAcceptsGrouping | JsValidation/js/jquery.validation.js:414-416 | `"1,000"` is accepted: thousands grouping is part of the language |
| Builtins.NumberRejectsShortGroup | JsValidation/js/jquery.validation.js:414-416 | `"1,00"` is rejected: every group after a comma has exactly three digits |
| Builtins.NumberRejectsTrailingPoint | JsValidation/js/jquery.validation.js:414-416 | `"1."` is rejected: a decimal point must be followed by a digit |
| Builtins.NoSymbolsIff | JsValidation/js/jquery.validation.js:423-425 | `noSymbols` holds exactly when every character is a letter, digit, space or underscore and at least one is a letter or digit |
| Builtins.MatchNoSymbols | JsValidation/js/jquery.validation.js:423-425 | a single left-to-right scan decides `noSymbols` exactly |
| Builtins.Email | JsValidation/js/jquery.validation.js:418-421 | every address the `email` rule accepts contains an `@` |
| Builtins.MaxLength | JsValidation/js/jquery.validation.js:427-430 | verdict is `length <= parameter` in UTF-16 units; a parameter that is not numeric compares as NaN and fails; the message is rewritten to name the bound and end with the current length |
| Builtins.MinLength | JsValidation/js/jquery.validation.js:432-435 | verdict is `length >= parameter`, with the same NaN behaviour; the message names the bound and the current length |
| Builtins.RangeLength | JsValidation/js/jquery.validation.js:437-440 | throws exactly when the parameter is undefined (`parameter[0]`); for a pair, the verdict is `lo <= length <= hi`; the message names `parameter[0]`, `parameter[1]` and the current length |
| Builtins.LengthMessagesTrackLength | JsValidation/js/jquery.validation.js:427-440 | two values of different lengths always get different messages from a length rule, because the message ends with the current length |
| Builtins.LengthMessagesTrackBound | JsValidation/js/jquery.validation.js:427-435 | for one value, two different numeric bounds always give different `maxLength` (and `minLength`) messages: the bound can be read back from the message |
| Builtins.RangeMessagesTrackBounds | JsValidation/js/jquery.validation.js:437-440 | for one value, two different pairs of bounds always give different `rangeLength` messages |
| Builtins.Evaluate | JsValidation/js/jquery.validation.js:105-108 | dispatch throws exactly for a name outside the seven built-ins, or for `rangeLength` without a parameter; each built-in name selects its own rule; only the length rules rewrite the message |
| Builtins.DefineCustomFunction | JsValidation/js/jquery.validation.js:287-294 | a configured function is used as the rule unchanged; any other configured value becomes a rule that fails every value |
| Strings.StripCR | JsValidation/js/jquery.validation.js:390-406 | the value the rules see has no carriage returns, and a value without them is passed unchanged |
| Strings.StripCRAppend | JsValidation/js/jquery.validation.js:390-406 | removal works piece by piece over a concatenation, so the kept characters stay in their order |
| Strings.StripCROfChar | JsValidation/js/jquery.validation.js:390-406 | a single carriage return is removed and any other single character is kept; with the previous row this determines the result on every string |
| Strings.Utf16Length | JsValidation/js/jquery.validation.js:427-440 | `value.length` counts UTF-16 units: at least one per character and at most two, and zero only for the empty string |
| Strings.Utf16LengthAppend | JsValidation/js/jquery.validation.js:427-440 | the length of a concatenation is the sum of the lengths |
| Strings.Utf16LengthOfChar | JsValidation/js/jquery.validation.js:427-440 | one character has length 2 exactly when it lies outside the Basic Multilingual Plane (a surrogate pair), and 1 otherwise |
| Records.DeleteAppend | JsValidation/js/jquery.validation.js:298-300 | `delete` works member by member over a concatenation, so the remaining members keep their order |
| Records.DeleteOne | JsValidation/js/jquery.validation.js:298-300 | on a single member, the member with the key goes and any other stays |
| Records.Delete | JsValidation/js/jquery.validation.js:298-300 | `removeRule` removes the key, keeps only members of the original table, leaves every other key's value unchanged, and changes nothing when the key is absent |
| Records.RuleRecordsRoundTrip | JsValidation/js/jquery.validation.js:253-265 | the stored rule records keep each rule's name and configured message, in order; reading them back gives the configuration |
| Records.VerifyRecordsRoundTrip | JsValidation/js/jquery.validation.js:268-282 | the stored verification records keep each name, message and url, in order |
| Records.SetValidationRules | JsValidation/js/jquery.validation.js:253-265 | one record per configured rule, each starting invalid |
| Forms.InputType | JsValidation/js/jquery.validation.js:376-387 | a non-input element's type is its tag name, and an input's type is its `type` property |
| ErrorLists.RemoveError | JsValidation/js/jquery.validation.js:147-153 | as written: an id at index 0 or absent is left in place; an id further back is removed once, with nothing else changed |
| ErrorLists.RemoveErrorFixed | JsValidation/js/jquery.validation.js:147-153 | with `index >= 0`, an id that is listed is removed wherever it stands |
| ErrorLists.UpdateFixed | JsValidation/js/jquery.validation.js:125-137 | with the corrected removal, a field is listed after its update exactly when one of its checks fails, and other ids are untouched |
| ErrorLists.Displayed | JsValidation/js/jquery.validation.js:157-184 | a message is shown exactly when the field is listed and some check fails, and it is the message of the first failing check |
| ErrorLists.FirstInvalid | JsValidation/js/jquery.validation.js:170-182 | the `errorEnabled` flag makes the shown message the first failing one in record order |
| Evaluation.EvaluateRules | JsValidation/js/jquery.validation.js:86-91 | every record before the first throwing rule gets its fresh verdict, every record from it on is unchanged, and a fault is reported exactly when some rule throws |
| Evaluation.EvaluateRulesIdempotent | JsValidation/js/jquery.validation.js:86-91 | re-checking a field whose value has not changed leaves its records as they are |
| Latest.AddError | JsValidation/js/jquery.validation.js:140-144 | the id is listed afterwards, only once if the list had no duplicates, a new id goes at the end, and no other id is affected |
| Latest.UpdateErrorList | JsValidation/js/jquery.validation.js:125-137 | a failing field is listed afterwards; a passing field not at the head is unlisted; the list is unchanged when the field is at its head; other ids are untouched |
| Latest.CheckValidity | JsValidation/js/jquery.validation.js:79-102 | a missing element throws; the field's records are re-evaluated and the list is updated from them; other fields' rule and verification records are unchanged |
| Latest.ValidationListsFailingFields | JsValidation/js/jquery.validation.js:54-73 | after a validation that does not throw, the list holds each configured failing field once, and the form is valid exactly when no configured field fails |
| Latest.OnSubmit | JsValidation/js/jquery.validation.js:342-358 | under `debug` submission is blocked without validating; otherwise it is blocked exactly when the list left by validation is non-empty |
| Latest.OnSubmitBlocksInvalidForms | JsValidation/js/jquery.validation.js:342-358 | when validation does not throw, a form with a failing configured field is never submitted, and a form whose configured fields all pass is |
| Latest.VerifyCheck | JsValidation/js/jquery.validation.js:112-122 | a field without an `ajax` record throws; an empty value issues nothing; otherwise the request for the url plus the raw value becomes the live one |
| Latest.Initiate | JsValidation/js/jquery.validation.js:450-460 | the previous request is superseded, the field is marked in progress, and nothing else in the form changes |
| Latest.Respond | JsValidation/js/jquery.validation.js:471-482 | only the live request's response is handled; malformed JSON throws before any record changes; otherwise the verdict is stored and the field is no longer in progress; the field is listed when the answer or another verification fails, and unlisted (unless at the head) when they all pass, whatever its rules say |
| Latest.Fail | JsValidation/js/jquery.validation.js:471-482 | a failed request never runs its done-callback: no record and no list entry changes |
| Latest.SupersededResponseIgnored | JsValidation/js/jquery.validation.js:450-460 | after a second request, the first request's response changes nothing |
| Latest.CrossFieldAbortStrandsField | JsValidation/js/jquery.validation.js:443-460 | a request from another field aborts this field's request, which then stays in progress with its old verdict |
| Latest.LiveResponseSettles | JsValidation/js/jquery.validation.js:450-482 | the response to the last request settles that field's verification |
| Latest.StaleHeadAfterKeyup | JsValidation/js/jquery.validation.js:361-368 | as written: re-checking the only listed field after it has been corrected leaves it listed, so the form stays invalid |
| Latest.Handlers | JsValidation/js/jquery.validation.js:303-333 | change and keyup handlers are bound only when `onchange` is set and the element type is listed; blur goes with keyup; submit is bound exactly when the type is `submit` |
| Latest.Setup | JsValidation/js/jquery.validation.js:208-250 | the form starts with an empty error list and no request in its own request slot, and has a submit binding exactly when `onsubmit` is set |
| Latest.SetupRuleFields | JsValidation/js/jquery.validation.js:210-225 | the rules loop never touches the page, the error list or the request slot, only removes configuration entries, and binds handlers only to fields |
| Latest.SetupRuleFieldsControls | JsValidation/js/jquery.validation.js:210-225 | when the loop does not throw, each configured id is on the page; a form control gets the rule records built from its own configuration and keeps that configuration; the configuration of a non-control is removed |
| Latest.SetupVerifyFields | JsValidation/js/jquery.validation.js:227-243 | the verifications loop leaves every field's rule records as they were, and otherwise has the same frame as the rules loop |
| Latest.SetupVerifyFieldsControls | JsValidation/js/jquery.validation.js:227-243 | when the loop does not throw, a form control gets the verification records built from its configuration; a non-control's rule configuration is removed |
| Latest.Settle | JsValidation/js/jquery.validation.js:475-481 | a response stores its verdict in the field's `ajax` record and clears `inprogress`; the field is listed exactly when the answer or another verification record fails, except that a field at the head of the list leaves the list unchanged; other ids and all rule records are unchanged |
| Latest.AcceptedVerificationUnlistsFailingField | JsValidation/js/jquery.validation.js:471-482 | rules and verifications share one list: with list `["b", "f"]` and a failing `required` rule on `f`, an accepted answer for `f` unlists it while its rule still fails |
| Latest.SetupFindsEveryId | JsValidation/js/jquery.validation.js:208-243 | a setup that does not throw found every configured id, in both tables, on the page |
| Latest.SetupKeepsFormControls | JsValidation/js/jquery.validation.js:208-250 | with distinct ids, every rule configuration that survives setup belongs to a form control present in the page, and its records are those built from it |
| Legacy.AddError | JsValidation/js/jquery.validation-0.2.0.js:90-92 | the id is appended on every call, duplicates included |
| Legacy.UpdateErrorList | JsValidation/js/jquery.validation-0.2.0.js:73-87 | the id's count drops by one (unless it was the head or absent) and grows by one per failing rule; other ids are untouched |
| Legacy.UpdateTwice | JsValidation/js/jquery.validation-0.2.0.js:44-49 | two updates in a row leave the id twice per failing rule, minus one when the list was non-empty |
| Legacy.CheckValidity | JsValidation/js/jquery.validation-0.2.0.js:53-63 | the field's rules are re-evaluated against its value; a throw leaves the list unchanged |
| Legacy.CheckField | JsValidation/js/jquery.validation-0.2.0.js:44-49 | one round of `validation`'s loop changes only the checked field's records and list entries |
| Legacy.CheckFieldCount | JsValidation/js/jquery.validation-0.2.0.js:44-49 | a round of the loop lists the field as often as the two updates dictate |
| Legacy.ValidationListsFailingFields | JsValidation/js/jquery.validation-0.2.0.js:38-50 | after a validation that does not throw, a field is listed exactly when it is configured and failing, and the form is valid exactly when no such field exists |
| Legacy.FirstFailingFieldDoubled | JsValidation/js/jquery.validation-0.2.0.js:38-50 | from an empty list, a field with k failing rules is listed 2k times |
| Legacy.HeadFieldAccumulates | JsValidation/js/jquery.validation-0.2.0.js:95-100 | the head of the list is never removed, so each re-check adds its failures on top |
| Legacy.OnSubmit | JsValidation/js/jquery.validation-0.2.0.js:223-236 | `onsubmit` returns false exactly when validation leaves a non-empty list, and it prevents submission when `debug` is set or that list is non-empty; the bound listener discards the return value |
| Legacy.Handlers | JsValidation/js/jquery.validation-0.2.0.js:194-220 | change and keyup are bound by element type alone; the `onchange` option is not consulted |
| Legacy.SetupFieldsFound | JsValidation/js/jquery.validation-0.2.0.js:148-170 | a loop that does not throw found every configured id on the page |
| Legacy.SetupFieldsCompletes | JsValidation/js/jquery.validation-0.2.0.js:148-170 | conversely, a loop whose configured ids are all on the page does not throw |
| Legacy.SetupFieldsControls | JsValidation/js/jquery.validation-0.2.0.js:148-170 | with every id on the page, a form control gets the records built from its configuration; a non-control loses its configuration and gets no records |
| Legacy.SetupSkipsInvalidElement | JsValidation/js/jquery.validation-0.2.0.js:148-170 | a configured id present in the page keeps its rules exactly when it is a form control |
| Stub.ValidInputTypeNarrower | JsValidation/jquery.validation-0.2.0.js:150-152 | this iteration accepts only select, input and textarea, a subset of the later check |
| Stub.Handlers | JsValidation/jquery.validation-0.2.0.js:101-128 | change is bound exactly when the type equals the first change element, keyup exactly when it equals the first keyup element; blur is never bound |
| Stub.DefaultHandlers | JsValidation/jquery.validation-0.2.0.js:101-128 | with the defaults, only select gets change and only text gets keyup; checkbox and textarea get nothing |
| Stub.SetupFields | JsValidation/jquery.validation-0.2.0.js:61-83 | setup throws exactly when it reaches a configured id missing from the page, and stops at the first non-control |
| Stub.SetupFieldsKeys | JsValidation/jquery.validation-0.2.0.js:61-83 | a field has records after the loop exactly when it had them before or it is one of the ids visited before the stopping point |
| Stub.SetupFieldsRecords | JsValidation/jquery.validation-0.2.0.js:86-98 | the records set are those built from each field's configuration |
| Stub.SetupStopsAtInvalidElement | JsValidation/jquery.validation-0.2.0.js:68-71 | a non-control configured before a control leaves the control without records |
| Stub.CheckAllUnchanged | JsValidation/jquery.validation-0.2.0.js:48-53 | checking any sequence of fields changes nothing |
| Stub.ValidationIgnoresFields | JsValidation/jquery.validation-0.2.0.js:36-58 | validation never changes the form and reports valid exactly when the list is empty, which it is after any setup |
| Stub.OnSubmit | JsValidation/jquery.validation-0.2.0.js:131-137 | submission is prevented exactly when `debug` is set; `onsubmit` never returns false |
| Stub.DefaultsBlockSubmission | JsValidation/jquery.validation-0.2.0.js:7-18 | with the default options (`debug: true`) no form is ever submitted |

## Left out

- DOM rendering is not modelled: the error `<span>`, `reset`, the border
  highlight and the select2 container lookup. Only which message would be
  shown is modelled (`ErrorLists.Displayed`).
- `$.fn.validate`, `$.extend` and `.on(...)` are not modelled as such.
  Their effects are modelled as data: merged `Options`, a `Binding` list,
  and maps for the DOM and for `.data()`.
- The defaults objects are shared between instances, because `$.extend` is
  shallow. This is not modelled: each form starts with its own empty error
  list.
- Latest.UpdateErrorList: in the newest file, `checkValidity` passes the
  rule records object itself to `updateErrorList` (lines 100-101), which
  calls `element.data(object)`. In jQuery that is the setter: it copies the
  records into the element's data and returns the wrapper. The loop at
  lines 131-132 therefore visits the DOM element, whose `.valid` is
  undefined, so the field is listed whatever its verdicts. A field with
  only verification records passes `undefined`, and `.data(undefined)`
  returns the whole data object. Its `verification` entry has no `.valid`
  either, so that field is listed too. As written, every existing field
  that `validation()` visits is listed, `formValid()` is then false, and
  outside `debug` `onsubmit` (lines 342-358) blocks every submit. The model
  reads the field's rule records instead, as the response handler at
  line 477 and the earlier file do. The contracts of
  `Latest.UpdateErrorList`, `Latest.CheckValidity`,
  `Latest.ValidationListsFailingFields` and
  `Latest.OnSubmitBlocksInvalidForms` hold for that reading, not for the
  code as written.
- Latest.CheckValidity: lists the field from its rule records (see the
  `Latest.UpdateErrorList` line above), not through the setter call as
  written.
- Latest.ValidationListsFailingFields: holds for the rule-record reading of
  lines 100-101; as written, every visited field is listed.
- Latest.OnSubmitBlocksInvalidForms: holds for the rule-record reading of
  lines 100-101; as written, outside `debug` every submit after a
  validation that visits a field is blocked.
- The `radio`/`checkbox` branch of `elementValue` reads `element.type` on a
  jQuery wrapper, so it is never taken. Non-string values are not modelled.
- The Ajax transport, `abort()`, timers and `$.parseJSON` are not modelled
  directly. A response body is abstract (`Json`). Completion and failure
  are explicit steps. The `setTimeout(this.request(url), 350)` line issues
  the request at once, and that is what is modelled.
- The newest file calls `validateCheck` twice per rule, once inside
  `console.log`. Both calls compute the same verdict and message, so one
  evaluation is modelled. Console output is left out.
- Latest.Setup: gives each form its own `verify.ajax` request slot and
  starts it empty. In the source that slot is one object on the prototype
  (lines 49 and 443-453), shared by every form on the page, and
  `setuprules` never resets it. A request from another form can therefore
  abort this form's request and leave its field in progress; that is not
  modelled.
- Builtins.Index: indexes a text parameter by character. JavaScript indexes
  UTF-16 code units, so an astral first character would give a lone
  surrogate there.
- Builtins.Email: states only that accepted addresses contain `@`. The full
  regular language is written out as a predicate, but it is not
  characterised further.
- Builtins.NumberOf: converts a text parameter only when it is an
  optionally signed decimal integer. Other JavaScript numerals (`"2.5"`,
  `"1e2"`, `"0x10"`) compare as NaN here. Numbers are shown as integers
  only.
- Rule names inherited from `Object.prototype`, such as `toString`, would
  resolve to a function instead of throwing. They are treated as unknown.
- JavaScript orders integer-like object keys first. Tables keep insertion
  order.
- In the stub's `checkValidity` (JsValidation/jquery.validation-0.2.0.js:49)
  and the earlier file's `checkValidity`
  (JsValidation/js/jquery.validation-0.2.0.js:56), `$.each` runs over
  `element.data("rules")`, which is undefined for a field without records.
  The model follows jQuery 3, where `$.each(undefined)` does nothing
  (`Stub.CheckValidity`, and the `id !in s.rules` branch of
  `Legacy.CheckValidity`). jQuery 1.x would throw there.
- What the browser does after a handler throws is not modelled. The handler's
  own decision and fault are.
- The build script and the browser specs are not part of this model.

## Findings

| source | as written | input that shows it | evidently intended | confidence | as-written member | corrected member |
|---|---|---|---|---|---|---|
| JsValidation/js/jquery.validation.js:147-153 (also JsValidation/js/jquery.validation-0.2.0.js:95-100) | `removeError` removes only when `index > 0`, so the id at index 0 is never removed | error list `["a"]`; field `a` has a `required` rule, and the user types `x` and triggers keyup | `index >= 0`: a corrected field leaves the list | high, not executed | Latest.StaleHeadAfterKeyup | ErrorLists.UpdateFixed |

`ErrorLists.RemoveError` models the guard as written. `Latest.StaleHeadAfterKeyup`
exhibits the input: after the keyup the field passes but is still listed, so
the form stays invalid. `ErrorLists.RemoveErrorFixed` and
`ErrorLists.UpdateFixed` are the corrected definitions, and
`ErrorLists.UpdateFixed` proves the intended property. The whole-form
`validation()` empties the list before it checks every field, so the quirk
cannot change a submit verdict. `Latest.ValidationListsFailingFields` proves
this, and the flow modules therefore keep the guard as written. The guard
matters for re-checks made by the change and keyup handlers, and for
verification responses (line 477): `Latest.Settle` keeps a field at the head
of the list listed after the server accepts its value.

=== FILE: builtins.dfy ===
/** The builtin rule predicates (`validate` in the newest file, `methods` in
    the earlier one; both tables are identical) and the dispatch by rule name.

    Each regular expression is written twice: once as the language it denotes
    (an existential split that follows the pattern's structure), and once as a
    deterministic recognizer; a lemma proves the two agree.
 */
module Builtins {
  import opened Results
  import opened Strings
  import opened Records

  /** What evaluating one rule produces: its validity and, for the length
      rules, the message they write back into the rule's record. */
  datatype Verdict = Verdict(valid: bool, message: Option<string>)

  // ---------------------------------------------------------------- required

  /** `$.trim(value).length > 0`. */
  predicate Required(v: string) {
    Utf16Length(Trim(v)) > 0
  }

  /** `required` accepts exactly the values holding a non-whitespace character. */
  lemma RequiredIff(v: string)
    ensures Required(v) <==> exists i | 0 <= i < |v| :: !IsSpace(v[i])
  {
    TrimEmptyIff(v);
  }

  // ---------------------------------------------------------------- number
  // /^-?(?:\d+|\d{1,3}(?:,\d{3})+)?(?:\.\d+)?$/

  /** `(?:,\d{3})+` */
  predicate Groups(q: string)
    decreases |q|
  {
    |q| >= 4 && q[0] == ',' && AllDigits(q[1..4]) && (|q| == 4 || Groups(q[4..]))
  }

  /** `\d{1,3}(?:,\d{3})+` */
  predicate Grouped(p: string) {
    exists c | 1 <= c <= 3 && c < |p| :: AllDigits(p[..c]) && Groups(p[c..])
  }

  /** `(?:\d+|\d{1,3}(?:,\d{3})+)?` */
  predicate IntegerPart(p: string) {
    |p| == 0 || AllDigits(p) || Grouped(p)
  }

  /** `(?:\.\d+)?` */
  predicate FractionPart(f: string) {
    |f| == 0 || (|f| >= 2 && f[0] == '.' && AllDigits(f[1..]))
  }

  /** The language of the `number` pattern: an optional minus sign, an
      integer part and a fraction part, each possibly empty. */
  ghost predicate NumberLanguage(v: string) {
    exists a, k | 0 <= a <= 1 && a <= k <= |v| ::
      (a == 1 ==> v[0] == '-') && IntegerPart(v[a..k]) && FractionPart(v[k..])
  }

  /** The unsigned part splits at its first '.', because the integer part
      cannot hold one. */
  predicate UnsignedNumber(t: string) {
    var k := FirstIndex(t, '.');
    IntegerPart(t[..k]) && FractionPart(t[k..])
  }

  /** The `number` rule: a recognizer that reads the sign, then splits at the
      first '.'. */
  predicate Number(v: string) {
    if |v| > 0 && v[0] == '-' then UnsignedNumber(v[1..]) else UnsignedNumber(v)
  }

  lemma {:induction false} GroupsChars(q: string, i: nat)
    requires Groups(q) && i < |q|
    ensures IsDigit(q[i]) || q[i] == ','
    decreases |q|
  {
    if i >= 4 {
      assert q[4..][i - 4] == q[i];
      GroupsChars(q[4..], i - 4);
    } else if i > 0 {
      assert q[1..4][i - 1] == q[i];
    }
  }

  /** An integer part holds only digits and commas, and starts with a digit. */
  lemma IntegerPartChars(p: string)
    requires IntegerPart(p)
    ensures forall i | 0 <= i < |p| :: IsDigit(p[i]) || p[i] == ','
    ensures |p| > 0 ==> IsDigit(p[0])
  {
    if !AllDigits(p) && |p| > 0 {
      var c :| 1 <= c <= 3 && c < |p| && AllDigits(p[..c]) && Groups(p[c..]);
      assert IsDigit(p[..c][0]);
      forall i | 0 <= i < |p|
        ensures IsDigit(p[i]) || p[i] == ','
      {
        if i < c {
          assert p[..c][i] == p[i];
        } else {
          assert p[c..][i - c] == p[i];
          GroupsChars(p[c..], i - c);
        }
      }
    }
  }

  /** With the split point fixed, the unsigned part is recognised exactly when
      some split of it matches. */
  lemma UnsignedSplit(t: string, k: nat)
    requires k <= |t| && IntegerPart(t[..k]) && FractionPart(t[k..])
    ensures UnsignedNumber(t)
  {
    IntegerPartChars(t[..k]);
    var f := FirstIndex(t, '.');
    forall j | 0 <= j < k
      ensures t[j] != '.'
    {
      assert t[..k][j] == t[j];
    }
    if k < |t| {
      assert t[k..][0] == t[k];
    }
    assert f == k;
  }

  /** Every string the recognizer accepts is in the pattern's language. */
  lemma NumberInLanguage(v: string)
    requires Number(v)
    ensures NumberLanguage(v)
  {
    var a := if |v| > 0 && v[0] == '-' then 1 else 0;
    var t := v[a..];
    var k := FirstIndex(t, '.');
    assert v[a..a + k] == t[..k];
    assert v[a + k..] == t[k..];
  }

  /** A minus sign cannot start the integer or the fraction part, so a
      string of the language that starts with one reads it as the sign. */
  lemma SignNotUnsigned(v: string, k: nat)
    requires 0 < |v| && v[0] == '-' && k <= |v|
    ensures !(IntegerPart(v[..k]) && FractionPart(v[k..]))
  {
    if IntegerPart(v[..k]) && 0 < k {
      assert v[..k][0] == v[0];
      IntegerPartChars(v[..k]);
    }
  }

  /** Every string of the pattern's language is accepted by the recognizer. */
  lemma LanguageIsNumber(v: string)
    requires NumberLanguage(v)
    ensures Number(v)
  {
    var a, k :| 0 <= a <= 1 && a <= k <= |v|
      && (a == 1 ==> v[0] == '-') && IntegerPart(v[a..k]) && FractionPart(v[k..]);
    var t := v[a..];
    assert t[..k - a] == v[a..k];
    assert t[k - a..] == v[k..];
    assert a == 0 ==> !(|v| > 0 && v[0] == '-') by {
      if a == 0 && |v| > 0 && v[0] == '-' {
        assert v[0..k] == v[..k];
        SignNotUnsigned(v, k);
      }
    }
    UnsignedSplit(t, k - a);
  }

  /** The recognizer accepts exactly the language of the pattern. */
  lemma NumberMatchesPattern(v: string)
    ensures Number(v) <==> NumberLanguage(v)
  {
    if Number(v) {
      NumberInLanguage(v);
    }
    if NumberLanguage(v) {
      LanguageIsNumber(v);
    }
  }

  /** The sign alone, the empty string and a bare fraction are numbers. */
  lemma NumberAcceptsDegenerate()
    ensures Number("") && Number("-") && Number(".5")
  {
    assert FirstIndex(".5", '.') == 0;
  }

  /** A thousands separator followed by three digits is a number. */
  lemma NumberAcceptsGrouping()
    ensures Number("1,000")
  {
    var v := "1,000";
    assert v[..1] == "1" && v[1..] == ",000";
    assert AllDigits(v[..1]) && Groups(v[1..]);
    assert FirstIndex(v, '.') == 5;
    assert v[..5] == v;
  }

  /** A separator followed by two digits is not a number. */
  lemma NumberRejectsShortGroup()
    ensures !Number("1,00")
  {
    var v := "1,00";
    assert FirstIndex(v, '.') == 4;
    assert v[..4] == v;
    assert !IsDigit(v[1]);
    assert v[..2][1] == v[1] && v[..3][1] == v[1];
    assert !AllDigits(v[1..]) by { assert v[1..][0] == ','; }
    assert !Groups(v[1..]) by { assert |v[1..]| == 3; }
  }

  /** A trailing point is not a number. */
  lemma NumberRejectsTrailingPoint()
    ensures !Number("1.")
  {
    var v := "1.";
    assert FirstIndex(v, '.') == 1;
    assert v[1..] == ".";
  }

  // ---------------------------------------------------------------- noSymbols
  // /^[A-Za-z0-9 _]*[A-Za-z0-9][A-Za-z0-9 _]*$/

  predicate Alnum(c: char) {
    ('A' <= c <= 'Z') || ('a' <= c <= 'z') || IsDigit(c)
  }

  predicate WordChar(c: char) {
    Alnum(c) || c == ' ' || c == '_'
  }

  predicate AllWord(s: string) {
    forall i | 0 <= i < |s| :: WordChar(s[i])
  }

  /** The language of the `noSymbols` pattern: word characters around one
      alphanumeric character. */
  predicate NoSymbols(v: string) {
    exists k | 0 <= k < |v| :: AllWord(v[..k]) && Alnum(v[k]) && AllWord(v[k + 1..])
  }

  /** `noSymbols` accepts exactly the values made of letters, digits, spaces
      and underscores that hold at least one letter or digit. */
  lemma NoSymbolsIff(v: string)
    ensures NoSymbols(v) <==> AllWord(v) && exists i | 0 <= i < |v| :: Alnum(v[i])
  {
    if NoSymbols(v) {
      var k :| 0 <= k < |v| && AllWord(v[..k]) && Alnum(v[k]) && AllWord(v[k + 1..]);
      forall i | 0 <= i < |v|
        ensures WordChar(v[i])
      {
        if i < k {
          assert v[..k][i] == v[i];
        } else if i > k {
          assert v[k + 1..][i - k - 1] == v[i];
        }
      }
    }
    if AllWord(v) && exists i | 0 <= i < |v| :: Alnum(v[i]) {
      var k :| 0 <= k < |v| && Alnum(v[k]);
      assert AllWord(v[..k]);
      assert AllWord(v[k + 1..]);
    }
  }

  /** A single left-to-right pass deciding `noSymbols`: stop at the first
      character outside the class, otherwise remember whether an
      alphanumeric one was seen. */
  method MatchNoSymbols(v: string) returns (b: bool)
    ensures b <==> NoSymbols(v)
  {
    var seen := false;
    var i := 0;
    while i < |v|
      invariant 0 <= i <= |v|
      invariant AllWord(v[..i])
      invariant seen <==> exists j | 0 <= j < i :: Alnum(v[j])
    {
      if !WordChar(v[i]) {
        NoSymbolsIff(v);
        return false;
      }
      if Alnum(v[i]) {
        seen := true;
      }
      assert v[..i + 1] == v[..i] + [v[i]];
      i := i + 1;
    }
    assert v[..i] == v;
    NoSymbolsIff(v);
    b := seen;
  }

  // ---------------------------------------------------------------- email
  // /^(([^<>()[\]\\.,;:\s@"]+(\.[^<>()[\]\\.,;:\s@"]+)*)|(".+"))@
  //   ((\[[0-9]{1,3}\.[0-9]{1,3}\.[0-9]{1,3}\.[0-9]{1,3}\])|(([a-zA-Z\-0-9]+\.)+[a-zA-Z]{2,}))$/

  /** The characters the pattern's `.` does not match. */
  predicate LineTerminator(c: char) {
    c == '\n' || c == '\r' || c == '\U{2028}' || c == '\U{2029}'
  }

  /** `[^<>()[\]\\.,;:\s@"]` */
  predicate AtomChar(c: char) {
    c !in "<>()[]\\.,;:@\"" && !IsSpace(c)
  }

  predicate AsciiLetter(c: char) {
    ('A' <= c <= 'Z') || ('a' <= c <= 'z')
  }

  /** `[a-zA-Z\-0-9]` */
  predicate LabelChar(c: char) {
    AsciiLetter(c) || IsDigit(c) || c == '-'
  }

  /** Every character of `s` satisfies `pred`. */
  predicate Every(s: string, pred: char -> bool) {
    forall i | 0 <= i < |s| :: pred(s[i])
  }

  /** Non-empty pieces of `pred` characters (the dots between them are
      already split off). */
  predicate DottedPieces(parts: seq<string>, pred: char -> bool) {
    forall k | 0 <= k < |parts| :: |parts[k]| > 0 && Every(parts[k], pred)
  }

  /** `[^…]+(\.[^…]+)*`: atoms cannot hold '.', so the dots split them. */
  predicate DotAtom(l: string) {
    DottedPieces(Split(l, '.'), AtomChar)
  }

  /** `".+"` */
  predicate QuotedLocal(l: string) {
    |l| >= 3 && l[0] == '"' && l[|l| - 1] == '"'
    && forall i | 1 <= i < |l| - 1 :: !LineTerminator(l[i])
  }

  /** `\[[0-9]{1,3}(\.[0-9]{1,3}){3}\]` */
  predicate AddressLiteral(d: string) {
    |d| >= 2 && d[0] == '[' && d[|d| - 1] == ']'
    && var parts := Split(d[1..|d| - 1], '.');
       |parts| == 4 && forall k | 0 <= k < 4 :: 1 <= |parts[k]| <= 3 && AllDigits(parts[k])
  }

  /** `([a-zA-Z\-0-9]+\.)+[a-zA-Z]{2,}` */
  predicate HostName(d: string) {
    var parts := Split(d, '.');
    |parts| >= 2
    && DottedPieces(parts[..|parts| - 1], LabelChar)
    && |parts[|parts| - 1]| >= 2
    && Every(parts[|parts| - 1], AsciiLetter)
  }

  /** The `email` rule: the text before some '@' is a local part and the text
      after it is a domain. */
  predicate Email(v: string)
    ensures Email(v) ==> '@' in v
  {
    exists p | 0 <= p < |v| :: v[p] == '@'
      && (DotAtom(v[..p]) || QuotedLocal(v[..p]))
      && (AddressLiteral(v[p + 1..]) || HostName(v[p + 1..]))
  }

  // ---------------------------------------------------------------- lengths

  /** The number JavaScript compares a length against: numbers as they are,
      strings as `Number` reads an integer, arrays and undefined as NaN. */
  function NumberOf(p: Setting): (r: Option<int>)
    ensures p.Num? ==> r == Some(p.n)
    ensures p.Range? || p.Undefined? ==> r.None?
  {
    match p
    case Num(n) => Some(n)
    case Text(s) => ParseIntText(Trim(s))
    case _ => None
  }

  /** `len <= p`; false against NaN. */
  predicate AtMost(len: nat, p: Setting) {
    NumberOf(p).Some? && len <= NumberOf(p).value
  }

  /** `len >= p`; false against NaN. */
  predicate AtLeast(len: nat, p: Setting) {
    NumberOf(p).Some? && len >= NumberOf(p).value
  }

  /** `parameter[i]` on a defined parameter (on undefined it throws):
      undefined on a number or past the end of a string. */
  function Index(p: Setting, i: nat): (r: Setting)
    requires i <= 1 && !p.Undefined?
    ensures p.Range? ==> r == Num(if i == 0 then p.lo else p.hi)
    ensures p.Num? ==> r.Undefined?
  {
    match p
    case Num(_) => Undefined
    case Text(s) => if i < |s| then Text([s[i]]) else Undefined
    case Range(lo, hi) => Num(if i == 0 then lo else hi)
  }

  /** The tail every length message ends with. */
  function Currently(v: string): string {
    " " + LengthNote(v)
  }

  function LengthNote(v: string): string {
    "characters long, currently " + ShowNat(Utf16Length(v))
  }

  /** `maxLength`: valid when the length is within the bound; the message is
      rewritten whatever the outcome. */
  function MaxLength(v: string, p: Setting): (r: Verdict)
    ensures r.valid <==> AtMost(Utf16Length(v), p)
    ensures p.Num? ==> (r.valid <==> Utf16Length(v) <= p.n)
    ensures r.message == Some("must be less than " + Show(p) + Currently(v))
  {
    Verdict(AtMost(Utf16Length(v), p), Some("must be less than " + Show(p) + Currently(v)))
  }

  /** `minLength`: valid when the length reaches the bound; the message is
      rewritten whatever the outcome. */
  function MinLength(v: string, p: Setting): (r: Verdict)
    ensures r.valid <==> AtLeast(Utf16Length(v), p)
    ensures p.Num? ==> (r.valid <==> Utf16Length(v) >= p.n)
    ensures r.message == Some("must be more than " + Show(p) + Currently(v))
  {
    Verdict(AtLeast(Utf16Length(v), p), Some("must be more than " + Show(p) + Currently(v)))
  }

  /** `rangeLength`: valid when the length lies between the two bounds; the
      message is rewritten whatever the outcome; an undefined parameter
      throws. */
  function RangeLength(v: string, p: Setting): (r: Result<Verdict>)
    ensures r.Err? <==> p.Undefined?
    ensures p.Range? ==> r.Ok? && (r.value.valid <==> p.lo <= Utf16Length(v) <= p.hi)
    ensures r.Ok? ==>
      r.value.message == Some("must be between " + Show(Index(p, 0)) + " and " + Show(Index(p, 1)) + Currently(v))
  {
    if p.Undefined? then Err(IndexOfUndefined("rangeLength"))
    else
    var lo := Index(p, 0);
    var hi := Index(p, 1);
    Ok(Verdict(AtLeast(Utf16Length(v), lo) && AtMost(Utf16Length(v), hi),
               Some("must be between " + Show(lo) + " and " + Show(hi) + Currently(v))))
  }

  /** The rewritten length messages follow the current length: two values of
      different JavaScript length never leave the same message. */
  lemma LengthMessagesTrackLength(v: string, w: string, p: Setting)
    requires Utf16Length(v) != Utf16Length(w)
    ensures MaxLength(v, p).message != MaxLength(w, p).message
    ensures MinLength(v, p).message != MinLength(w, p).message
    ensures p.Range? ==> RangeLength(v, p).value.message != RangeLength(w, p).value.message
  {
    CurrentlyTracksLength(v, w);
    PrefixKeepsDifference("must be less than " + Show(p), Currently(v), Currently(w));
    PrefixKeepsDifference("must be more than " + Show(p), Currently(v), Currently(w));
    if p.Range? {
      PrefixKeepsDifference("must be between " + Show(Num(p.lo)) + " and " + Show(Num(p.hi)),
                            Currently(v), Currently(w));
    }
  }

  /** The rewritten length messages also follow the bound: for one value,
      two different numeric bounds never leave the same message. */
  lemma LengthMessagesTrackBound(v: string, a: int, b: int)
    requires a != b
    ensures MaxLength(v, Num(a)).message != MaxLength(v, Num(b)).message
    ensures MinLength(v, Num(a)).message != MinLength(v, Num(b)).message
  {
    var c := Currently(v);
    assert c[0] == ' ';
    PrefixedIntsDiffer("must be less than ", a, b, c, c);
    PrefixedIntsDiffer("must be more than ", a, b, c, c);
  }

  /** The same for `rangeLength`: different pairs of bounds give different
      messages. */
  lemma RangeMessagesTrackBounds(v: string, lo: int, hi: int, lo': int, hi': int)
    requires lo != lo' || hi != hi'
    ensures RangeLength(v, Range(lo, hi)).value.message != RangeLength(v, Range(lo', hi')).value.message
  {
    var m := RangeMessage(v, lo, hi);
    var m' := RangeMessage(v, lo', hi');
    assert m != m' by {
      if lo != lo' {
        RangeMessageSplit(v, lo, hi);
        RangeMessageSplit(v, lo', hi');
        PrefixedIntsDiffer("must be between ", lo, lo', " and " + ShowInt(hi) + Currently(v),
                           " and " + ShowInt(hi') + Currently(v));
      } else {
        PrefixedIntsDiffer("must be between " + ShowInt(lo) + " and ", hi, hi', Currently(v), Currently(v));
      }
    }
  }

  /** The `rangeLength` message for the bounds `lo` and `hi`. */
  function RangeMessage(v: string, lo: int, hi: int): (m: string)
    ensures RangeLength(v, Range(lo, hi)).value.message == Some(m)
  {
    "must be between " + ShowInt(lo) + " and " + ShowInt(hi) + Currently(v)
  }

  /** The `rangeLength` message read as its lower bound followed by a tail
      that starts with a space. */
  lemma RangeMessageSplit(v: string, lo: int, hi: int)
    ensures var x := " and " + ShowInt(hi) + Currently(v);
      && RangeMessage(v, lo, hi) == "must be between " + ShowInt(lo) + x
      && |x| > 0 && x[0] == ' '
  {
    var x := " and " + ShowInt(hi) + Currently(v);
    assert x[0] == " and "[0];
  }

  /** Two texts that differ only in a rendered integer followed by a tail
      that starts with a space differ. */
  lemma PrefixedIntsDiffer(pre: string, a: int, b: int, x: string, y: string)
    requires a != b
    requires |x| > 0 && x[0] == ' ' && |y| > 0 && y[0] == ' '
    ensures pre + ShowInt(a) + x != pre + ShowInt(b) + y
  {
    assert x == " " + x[1..] && y == " " + y[1..];
    if ShowInt(a) + x == ShowInt(b) + y {
      ShowIntSplit(a, b, x[1..], y[1..]);
    }
    PrefixKeepsDifference(pre, ShowInt(a) + x, ShowInt(b) + y);
    assert pre + ShowInt(a) + x == pre + (ShowInt(a) + x);
    assert pre + ShowInt(b) + y == pre + (ShowInt(b) + y);
  }

  lemma CurrentlyTracksLength(v: string, w: string)
    requires Utf16Length(v) != Utf16Length(w)
    ensures Currently(v) != Currently(w)
  {
    ShowNatInjective(Utf16Length(v), Utf16Length(w));
    PrefixKeepsDifference("characters long, currently ", ShowNat(Utf16Length(v)), ShowNat(Utf16Length(w)));
    PrefixKeepsDifference(" ", LengthNote(v), LengthNote(w));
  }

  lemma PrefixKeepsDifference(x: string, a: string, b: string)
    requires a != b
    ensures x + a != x + b
  {
    if |a| == |b| {
      var i :| 0 <= i < |a| && a[i] != b[i];
      assert (x + a)[|x| + i] != (x + b)[|x| + i];
    }
  }

  // ---------------------------------------------------------------- dispatch

  /** The names the builtin table defines. */
  const BuiltinNames: set<string> :=
    {"required", "number", "email", "noSymbols", "maxLength", "minLength", "rangeLength"}

  /** `this.validate[ruleType](value, element, parameter)`: a name outside the
      table is undefined, and calling it throws. */
  function Evaluate(name: string, v: string, p: Setting): (r: Result<Verdict>)
    ensures r.Err? <==> name !in BuiltinNames || (name == "rangeLength" && p.Undefined?)
    ensures r.Ok? ==> (r.value.message.Some? <==> name in {"maxLength", "minLength", "rangeLength"})
    ensures name == "required" ==> r == Ok(Verdict(Required(v), None))
    ensures name == "number" ==> r == Ok(Verdict(Number(v), None))
    ensures name == "email" ==> r == Ok(Verdict(Email(v), None))
    ensures name == "noSymbols" ==> r == Ok(Verdict(NoSymbols(v), None))
    ensures name == "maxLength" ==> r == Ok(MaxLength(v, p))
    ensures name == "minLength" ==> r == Ok(MinLength(v, p))
    ensures name == "rangeLength" ==> r == RangeLength(v, p)
  {
    match name
    case "required" => Ok(Verdict(Required(v), None))
    case "number" => Ok(Verdict(Number(v), None))
    case "email" => Ok(Verdict(Email(v), None))
    case "noSymbols" => Ok(Verdict(NoSymbols(v), None))
    case "maxLength" => Ok(MaxLength(v, p))
    case "minLength" => Ok(MinLength(v, p))
    case "rangeLength" => RangeLength(v, p)
    case _ => Err(UnknownRule(name))
  }

  // ---------------------------------------------------------------- custom

  /** A configured value that may be a user function. */
  datatype Callable = Function(call: string -> bool) | Value(setting: Setting)

  /** `defineCustomFunction`: a function is kept, anything else becomes a
      predicate that always fails. */
  function DefineCustomFunction(c: Callable): (f: string -> bool)
    ensures c.Function? ==> forall v :: f(v) == c.call(v)
    ensures c.Value? ==> forall v :: !f(v)
  {
    match c
    case Function(g) => g
    case Value(_) => (v: string) => false
  }
}

=== FILE: errorlists.dfy ===
/** The form's `errorList`: the ids of the fields currently failing, kept as
    an ordered JavaScript array, and the operations every version shares.

    `addError` differs between versions and lives beside each version's
    model; the rest (`indexOf`, `removeError`, `formValid` and the choice of
    message `displayErrors` shows) is identical in all of them.
 */
module ErrorLists {
  import opened Results

  /** `Array.prototype.indexOf` / `$.inArray` with strict equality. */
  function IndexOf<T(==)>(list: seq<T>, x: T): (i: int)
    ensures -1 <= i < |list|
    ensures i == -1 <==> x !in list
    ensures i >= 0 ==> list[i] == x && forall j | 0 <= j < i :: list[j] != x
  {
    if |list| == 0 then -1
    else if list[0] == x then 0
    else
      var i := IndexOf(list[1..], x);
      if i == -1 then -1 else i + 1
  }

  predicate NoDup<T(==)>(list: seq<T>) {
    forall i, j | 0 <= i < j < |list| :: list[i] != list[j]
  }

  /** The list with every occurrence of `x` dropped: what "the other ids are
      untouched" compares. */
  function Without<T(==)>(list: seq<T>, x: T): (r: seq<T>)
    ensures x !in r
    ensures x !in list ==> r == list
  {
    if |list| == 0 then []
    else if list[0] == x then Without(list[1..], x)
    else [list[0]] + Without(list[1..], x)
  }

  /** Number of occurrences of `x`. */
  function Count<T(==)>(list: seq<T>, x: T): (n: nat)
    ensures n == 0 <==> x !in list
    ensures n <= |list|
  {
    if |list| == 0 then 0
    else (if list[0] == x then 1 else 0) + Count(list[1..], x)
  }

  lemma {:induction false} WithoutAppend<T>(a: seq<T>, b: seq<T>, x: T)
    ensures Without(a + b, x) == Without(a, x) + Without(b, x)
  {
    if |a| > 0 {
      assert (a + b)[1..] == a[1..] + b;
      WithoutAppend(a[1..], b, x);
    } else {
      assert a + b == b;
    }
  }

  lemma {:induction false} CountAppend<T>(a: seq<T>, b: seq<T>, x: T)
    ensures Count(a + b, x) == Count(a, x) + Count(b, x)
  {
    if |a| > 0 {
      assert (a + b)[1..] == a[1..] + b;
      CountAppend(a[1..], b, x);
    } else {
      assert a + b == b;
    }
  }

  lemma NoDupCount<T>(list: seq<T>, x: T)
    requires NoDup(list)
    ensures Count(list, x) <= 1
  {
    if |list| > 0 {
      assert NoDup(list[1..]);
      if list[0] == x {
        assert x !in list[1..] by {
          forall j | 0 <= j < |list[1..]| ensures list[1..][j] != x { assert list[1..][j] == list[j + 1]; }
        }
      }
      NoDupCount(list[1..], x);
    }
  }

  /** Ids other than the updated one keep their membership. */
  lemma WithoutKeepsOthers<T>(a: seq<T>, b: seq<T>, id: T, x: T)
    requires Without(a, id) == Without(b, id) && x != id
    ensures x in a <==> x in b
  {
    WithoutMembers(a, id, x);
    WithoutMembers(b, id, x);
  }

  lemma {:induction false} WithoutMembers<T>(a: seq<T>, id: T, x: T)
    requires x != id
    ensures x in a <==> x in Without(a, id)
  {
    if |a| > 0 {
      WithoutMembers(a[1..], id, x);
      assert a == [a[0]] + a[1..];
    }
  }

  /** Deletes position `i`. */
  function DeleteAt<T(==)>(list: seq<T>, i: nat): (r: seq<T>)
    requires i < |list|
    ensures |r| == |list| - 1
  {
    list[..i] + list[i + 1..]
  }

  /** Deleting one occurrence of `x` lowers its count by one and leaves the
      other ids, in order, as they were. */
  lemma DeleteOccurrence<T>(list: seq<T>, i: nat, x: T)
    requires i < |list| && list[i] == x
    ensures Without(DeleteAt(list, i), x) == Without(list, x)
    ensures Count(DeleteAt(list, i), x) == Count(list, x) - 1
  {
    var a, b := list[..i], list[i + 1..];
    assert list == a + ([x] + b);
    assert ([x] + b)[1..] == b;
    assert DeleteAt(list, i) == a + b;
    WithoutAppend(a, [x] + b, x);
    WithoutAppend(a, b, x);
    CountAppend(a, [x] + b, x);
    CountAppend(a, b, x);
  }

  lemma DeleteKeepsNoDup<T>(list: seq<T>, i: nat)
    requires i < |list| && NoDup(list)
    ensures NoDup(DeleteAt(list, i))
    ensures forall y | y in DeleteAt(list, i) :: y in list
    ensures list[i] !in DeleteAt(list, i)
  {
    var r := DeleteAt(list, i);
    forall a, b | 0 <= a < b < |r|
      ensures r[a] != r[b]
    {
      var a' := if a < i then a else a + 1;
      var b' := if b < i then b else b + 1;
      assert r[a] == list[a'] && r[b] == list[b'];
    }
    forall k | 0 <= k < |r|
      ensures r[k] in list && r[k] != list[i]
    {
      var k' := if k < i then k else k + 1;
      assert r[k] == list[k'];
    }
  }

  /** `removeError`, as written: the id is spliced out only when its index
      is greater than 0, so an id at the head of the list is never removed. */
  function RemoveError<T(==)>(list: seq<T>, x: T): (r: seq<T>)
    ensures IndexOf(list, x) <= 0 ==> r == list
    ensures IndexOf(list, x) > 0 ==> |r| == |list| - 1 && Count(r, x) == Count(list, x) - 1
    ensures Without(r, x) == Without(list, x)
    ensures NoDup(list) ==> NoDup(r) && (IndexOf(list, x) > 0 ==> x !in r)
    ensures forall y | y in r :: y in list
  {
    var i := IndexOf(list, x);
    if i > 0 then
      DeleteOccurrence(list, i, x);
      assert NoDup(list) ==> NoDup(DeleteAt(list, i)) && x !in DeleteAt(list, i) by {
        if NoDup(list) { DeleteKeepsNoDup(list, i); }
      }
      assert forall y | y in DeleteAt(list, i) :: y in list by {
        forall k | 0 <= k < |DeleteAt(list, i)| ensures DeleteAt(list, i)[k] in list {
          var k' := if k < i then k else k + 1;
          assert DeleteAt(list, i)[k] == list[k'];
        }
      }
      DeleteAt(list, i)
    else list
  }

  /** `removeError` as evidently intended, with the guard `index >= 0`:
      the occurrence is removed wherever it stands, the first included. */
  function RemoveErrorFixed<T(==)>(list: seq<T>, x: T): (r: seq<T>)
    ensures x in list ==> |r| == |list| - 1 && Count(r, x) == Count(list, x) - 1
    ensures x !in list ==> r == list
    ensures Without(r, x) == Without(list, x)
    ensures NoDup(list) ==> NoDup(r) && x !in r
    ensures forall y | y in r :: y in list
  {
    var i := IndexOf(list, x);
    if i >= 0 then
      DeleteOccurrence(list, i, x);
      assert NoDup(list) ==> NoDup(DeleteAt(list, i)) && x !in DeleteAt(list, i) by {
        if NoDup(list) { DeleteKeepsNoDup(list, i); }
      }
      assert forall y | y in DeleteAt(list, i) :: y in list by {
        forall k | 0 <= k < |DeleteAt(list, i)| ensures DeleteAt(list, i)[k] in list {
          var k' := if k < i then k else k + 1;
          assert DeleteAt(list, i)[k] == list[k'];
        }
      }
      DeleteAt(list, i)
    else list
  }

  /** `formValid`: no id is listed. */
  predicate FormValid<T(==)>(list: seq<T>) {
    |list| == 0
  }

  /** A rule or verification record reduced to what `displayErrors` and
      `updateErrorList` read from it. */
  datatype Check<M> = Check(message: M, valid: bool)

  predicate AnyInvalid<M(==)>(checks: seq<Check<M>>) {
    exists i | 0 <= i < |checks| :: !checks[i].valid
  }

  /** Number of failing checks. */
  function InvalidCount<M(==)>(checks: seq<Check<M>>): (n: nat)
    ensures n == 0 <==> !AnyInvalid(checks)
  {
    if |checks| == 0 then 0
    else
      assert forall i | 1 <= i < |checks| :: checks[1..][i - 1] == checks[i];
      (if checks[0].valid then 0 else 1) + InvalidCount(checks[1..])
  }

  /** The message of the first failing check in declaration order. */
  function FirstInvalid<M(==)>(checks: seq<Check<M>>): (r: Option<M>)
    ensures r.None? <==> !AnyInvalid(checks)
    ensures r.Some? ==> exists i | 0 <= i < |checks| ::
      !checks[i].valid && checks[i].message == r.value
      && forall j | 0 <= j < i :: checks[j].valid
  {
    if |checks| == 0 then None
    else if !checks[0].valid then Some(checks[0].message)
    else
      var r := FirstInvalid(checks[1..]);
      assert forall i | 1 <= i < |checks| :: checks[1..][i - 1] == checks[i];
      assert r.Some? ==> exists i | 0 <= i < |checks| ::
        !checks[i].valid && checks[i].message == r.value
        && forall j | 0 <= j < i :: checks[j].valid by {
        if r.Some? {
          var i :| 0 <= i < |checks[1..]| && !checks[1..][i].valid && checks[1..][i].message == r.value
            && forall j | 0 <= j < i :: checks[1..][j].valid;
          assert forall j | 0 <= j < i + 1 :: checks[j].valid by {
            forall j | 0 <= j < i + 1 ensures checks[j].valid {
              if j > 0 { assert checks[j] == checks[1..][j - 1]; }
            }
          }
          assert checks[i + 1] == checks[1..][i];
        }
      }
      r
  }

  /** The message `displayErrors` appends for field `id`: nothing unless the
      id is listed, otherwise the first failing check's message. */
  function Displayed<M(==)>(list: seq<string>, id: string, checks: seq<Check<M>>): (r: Option<M>)
    ensures id !in list ==> r.None?
    ensures r.Some? <==> id in list && AnyInvalid(checks)
    ensures r.Some? ==> exists i | 0 <= i < |checks| ::
      !checks[i].valid && checks[i].message == r.value
      && forall j | 0 <= j < i :: checks[j].valid
  {
    if IndexOf(list, id) >= 0 then FirstInvalid(checks) else None
  }

  /** `updateErrorList` with the corrected removal: the id ends up listed
      exactly when one of its checks fails, and nothing else moves. */
  function UpdateFixed<M(==)>(list: seq<string>, id: string, checks: seq<Check<M>>): (r: seq<string>)
    requires NoDup(list)
    ensures NoDup(r)
    ensures id in r <==> AnyInvalid(checks)
    ensures Without(r, id) == Without(list, id)
  {
    var removed := RemoveErrorFixed(list, id);
    if AnyInvalid(checks) then
      WithoutAppend(removed, [id], id);
      assert NoDup(removed + [id]) by {
        forall a, b | 0 <= a < b < |removed + [id]| ensures (removed + [id])[a] != (removed + [id])[b] {
          if b == |removed| { assert (removed + [id])[a] == removed[a]; }
        }
      }
      removed + [id]
    else removed
  }
}

=== FILE: evaluation.dfy ===
/** Running the rules of one field, shared by the two versions that
    evaluate rules: the parameter lookup, the builtin call and the in-place
    update of the rule records, in declaration order.
 */
module Evaluation {
  import opened Results
  import opened Records
  import opened Builtins
  import opened ErrorLists

  /** The records as `updateErrorList` and `displayErrors` read them. */
  function RuleChecks(recs: seq<RuleRecord>): (c: seq<Check<Setting>>)
    ensures |c| == |recs|
    ensures forall i | 0 <= i < |recs| :: c[i] == Check(recs[i].message, recs[i].valid)
  {
    seq(|recs|, i requires 0 <= i < |recs| => Check(recs[i].message, recs[i].valid))
  }

  /** `validateCheck` (`validateRule` in the earlier version): reads the
      parameter from `options.rules[id]`, which throws when the field has no
      configuration, then calls the builtin of that name. */
  function Step(cfg: Option<Table<Setting>>, rec: RuleRecord, v: string, id: string): Result<Verdict> {
    match cfg
    case None => Err(NoRuleConfig(id))
    case Some(t) =>
      Evaluate(rec.name, v, match Lookup(t, rec.name) case Some(p) => p case None => Undefined)
  }

  /** Stores a verdict in the record: the validity, and the message when the
      rule rewrote it. */
  function Apply(rec: RuleRecord, d: Verdict): RuleRecord {
    rec.(valid := d.valid, message := if d.message.Some? then Text(d.message.value) else rec.message)
  }

  /** Index of the first record whose rule throws, `|recs|` when none does. */
  function FirstThrow(cfg: Option<Table<Setting>>, recs: seq<RuleRecord>, v: string, id: string): (k: nat)
    ensures k <= |recs|
    ensures forall j | 0 <= j < k :: Step(cfg, recs[j], v, id).Ok?
    ensures k < |recs| ==> Step(cfg, recs[k], v, id).Err?
    decreases |recs|
  {
    if |recs| == 0 then 0
    else if Step(cfg, recs[0], v, id).Err? then 0
    else
      assert forall j | 1 <= j < |recs| :: recs[1..][j - 1] == recs[j];
      1 + FirstThrow(cfg, recs[1..], v, id)
  }

  /** The rule loop of `checkValidity`: every record is evaluated in order
      and updated in place; a throw leaves the records before it updated and
      the rest as they were. (The newest version evaluates each rule twice,
      once for a log line; both calls compute the same verdict.) */
  function EvaluateRules(cfg: Option<Table<Setting>>, recs: seq<RuleRecord>, v: string, id: string)
    : (r: Run<seq<RuleRecord>>)
    ensures |r.value| == |recs|
    ensures r.Threw() <==> FirstThrow(cfg, recs, v, id) < |recs|
    ensures r.Threw() ==> r.fault == Some(Step(cfg, recs[FirstThrow(cfg, recs, v, id)], v, id).fault)
    ensures forall j | 0 <= j < FirstThrow(cfg, recs, v, id) ::
      r.value[j] == Apply(recs[j], Step(cfg, recs[j], v, id).value)
    ensures forall j | FirstThrow(cfg, recs, v, id) <= j < |recs| :: r.value[j] == recs[j]
    decreases |recs|
  {
    if |recs| == 0 then Run([], None)
    else
      match Step(cfg, recs[0], v, id)
      case Err(f) => Run(recs, Some(f))
      case Ok(d) =>
        var rest := EvaluateRules(cfg, recs[1..], v, id);
        assert forall j | 1 <= j < |recs| :: recs[1..][j - 1] == recs[j];
        Run([Apply(recs[0], d)] + rest.value, rest.fault)
  }

  /** Whether a rule throws depends only on its name. */
  lemma {:induction false} FirstThrowByName(cfg: Option<Table<Setting>>, a: seq<RuleRecord>, b: seq<RuleRecord>, v: string, id: string)
    requires |a| == |b| && forall j | 0 <= j < |a| :: a[j].name == b[j].name
    ensures FirstThrow(cfg, a, v, id) == FirstThrow(cfg, b, v, id)
    decreases |a|
  {
    if |a| > 0 {
      assert forall j | 1 <= j < |a| :: a[1..][j - 1] == a[j] && b[1..][j - 1] == b[j];
      FirstThrowByName(cfg, a[1..], b[1..], v, id);
    }
  }

  /** Checking a field twice with an unchanged value gives the same records:
      the parameter comes from the configuration, not from the rewritten
      message, so evaluated records are a fixed point. */
  lemma {:induction false} EvaluateRulesIdempotent(cfg: Option<Table<Setting>>, recs: seq<RuleRecord>, v: string, id: string)
    requires !EvaluateRules(cfg, recs, v, id).Threw()
    ensures EvaluateRules(cfg, EvaluateRules(cfg, recs, v, id).value, v, id) == EvaluateRules(cfg, recs, v, id)
  {
    var once := EvaluateRules(cfg, recs, v, id);
    var twice := EvaluateRules(cfg, once.value, v, id);
    FirstThrowByName(cfg, once.value, recs, v, id);
    assert !twice.Threw();
    assert twice.value == once.value;
  }

}

=== FILE: forms.dfy ===
/** What the plugin reads from the page and from its options, shared by the
    three versions: form elements, the merged options, and event bindings.
 */
module Forms {
  import opened Records
  import opened ErrorLists

  /** A form element as the plugin sees it: the lower-cased tag name, the
      `type` property (meaningful for `<input>`), and the raw value. */
  datatype Element = Element(tag: string, kind: string, value: string)

  /** `inputtype`: the tag name, or the input's type for an `<input>`. */
  function InputType(e: Element): (t: string)
    ensures e.tag != "input" ==> t == e.tag
    ensures e.tag == "input" ==> t == e.kind
  {
    if e.tag == "input" then e.kind else e.tag
  }

  /** `validinputtype` in the two later versions:
      `element.is('select, input, textarea, file, text')`. */
  predicate ValidInputType(e: Element) {
    e.tag in {"select", "input", "textarea", "file", "text"}
  }

  /** The options after `$.extend({}, defaults, options)`. Only the members
      the modelled core reads are kept. */
  datatype Options = Options(
    rules: Table<Table<Setting>>,
    verification: Table<Table<VerifySetting>>,
    debug: bool,
    onchange: bool,
    onsubmit: bool,
    highlight: bool,
    onchangeElements: seq<string>,
    onkeyupElements: seq<string>)

  datatype Event = Change | Keyup | Blur | Submit

  /** What a handler is attached to: a configured field or the form. */
  datatype Target = Field(id: string) | Form

  datatype Binding = Binding(target: Target, event: Event)

  /** `$.inArray(t, list) !== -1` */
  predicate Listed(t: string, list: seq<string>) {
    IndexOf(list, t) != -1
  }

  /** The ids of a configuration, in iteration order. */
  function Keys<V>(t: Table<V>): (ks: seq<string>)
    ensures |ks| == |t|
    ensures forall i | 0 <= i < |t| :: ks[i] == t[i].key
  {
    seq(|t|, i requires 0 <= i < |t| => t[i].key)
  }

  /** What `onsubmit` does: whether it calls `preventDefault()` on the event,
      and whether it returns `false`. The bound listener calls `onsubmit`
      without returning its result, so that value never reaches jQuery. */
  datatype Decision = Decision(preventDefault: bool, returnsFalse: bool)
}

=== FILE: latest.dfy ===
/** The newest iteration, `JsValidation/js/jquery.validation.js`: rules and
    remote verifications, a de-duplicating `addError`, one `verify.ajax`
    request slot shared by every field, and a submit handler that validates
    the whole form unless `debug` is set.
 */
module Latest {
  import opened Results
  import opened Strings
  import opened Records
  import opened Builtins
  import opened ErrorLists
  import opened Forms
  import opened Evaluation

  /** The defaults of this version. */
  const Defaults: Options := Options([], [], false, true, true, true,
                                     ["select", "checkbox", "file", "textarea"], ["text", "textarea"])

  /** What `.data()` holds for one element: its rule and verification
      records, each absent until setup stores them. */
  datatype FieldData = FieldData(rules: Option<seq<RuleRecord>>, verification: Option<seq<VerifyRecord>>)

  /** One issued GET request: a serial number, the field whose value it
      checks, and its url. */
  datatype Request = Request(id: nat, field: string, url: string)

  /** `verify.ajax`: a single object on the prototype, so a single request
      slot for every field. `live` is the request whose response will still
      be handled; `issued` numbers the requests. */
  datatype Ajax = Ajax(live: Option<Request>, issued: nat)

  /** The state of one bound form. */
  datatype State = State(
    options: Options,
    dom: map<string, Element>,
    data: map<string, FieldData>,
    errorList: seq<string>,
    bindings: seq<Binding>,
    ajax: Ajax)

  /** A response body after `$.parseJSON`; `Malformed` when it throws. */
  datatype Json = JBool(b: bool) | JString(s: string) | JOther | Malformed

  // ------------------------------------------------------------ error list

  /** `addError`: appends the id unless it is already listed. */
  function AddError(list: seq<string>, x: string): (r: seq<string>)
    ensures x in r
    ensures forall y :: y in r <==> y in list || y == x
    ensures x in list ==> r == list
    ensures x !in list ==> r == list + [x]
    ensures NoDup(list) ==> NoDup(r)
    ensures Without(r, x) == Without(list, x)
  {
    if IndexOf(list, x) == -1 then
      WithoutAppend(list, [x], x);
      list + [x]
    else list
  }

  /** The `$.each` of `updateErrorList`: one `addError` per failing check. */
  function AddEach<M>(list: seq<string>, id: string, checks: seq<Check<M>>): (r: seq<string>)
    ensures AnyInvalid(checks) ==> r == AddError(list, id)
    ensures !AnyInvalid(checks) ==> r == list
    decreases |checks|
  {
    if |checks| == 0 then list
    else
      assert forall i | 1 <= i < |checks| :: checks[1..][i - 1] == checks[i];
      AddEach(if checks[0].valid then list else AddError(list, id), id, checks[1..])
  }

  /** `updateErrorList`: remove the id, then add it back if a check fails. */
  function UpdateErrorList<M>(list: seq<string>, id: string, checks: seq<Check<M>>): (r: seq<string>)
    ensures AnyInvalid(checks) ==> id in r
    ensures !AnyInvalid(checks) && IndexOf(list, id) != 0 && NoDup(list) ==> id !in r
    ensures IndexOf(list, id) == 0 ==> r == list
    ensures Without(r, id) == Without(list, id)
    ensures NoDup(list) ==> NoDup(r)
  {
    AddEach(RemoveError(list, id), id, checks)
  }

  function VerifyChecks(recs: seq<VerifyRecord>): (c: seq<Check<string>>)
    ensures |c| == |recs|
    ensures forall i | 0 <= i < |recs| :: c[i] == Check(recs[i].message, recs[i].valid)
  {
    seq(|recs|, i requires 0 <= i < |recs| => Check(recs[i].message, recs[i].valid))
  }

  // ------------------------------------------------------------ field access

  function DataOf(s: State, id: string): FieldData {
    if id in s.data then s.data[id] else FieldData(None, None)
  }

  function RulesOf(s: State, id: string): Option<seq<RuleRecord>> {
    DataOf(s, id).rules
  }

  /** `elementValue`: the value with carriage returns removed. Its
      radio/checkbox branch reads `type` off the jQuery wrapper, which has
      none, so it is never taken. */
  function ValueOf(s: State, id: string): string
    requires id in s.dom
  {
    StripCR(s.dom[id].value)
  }

  // ------------------------------------------------------------ verification

  function VerifyNames(recs: seq<VerifyRecord>): (ns: seq<string>)
    ensures |ns| == |recs| && forall i | 0 <= i < |recs| :: ns[i] == recs[i].name
  {
    seq(|recs|, i requires 0 <= i < |recs| => recs[i].name)
  }

  /** Position of `verification.ajax` among the records, -1 when absent. */
  function AjaxIndex(s: State, id: string): (i: int)
    ensures i >= 0 ==> DataOf(s, id).verification.Some? && i < |DataOf(s, id).verification.value|
  {
    match DataOf(s, id).verification
    case None => -1
    case Some(recs) => IndexOf(VerifyNames(recs), "ajax")
  }

  function AjaxOf(s: State, id: string): VerifyRecord
    requires AjaxIndex(s, id) >= 0
  {
    DataOf(s, id).verification.value[AjaxIndex(s, id)]
  }

  /** Replaces the `ajax` record of field `id`. */
  function WithAjax(s: State, id: string, rec: VerifyRecord): (r: State)
    requires AjaxIndex(s, id) >= 0
    requires rec.name == "ajax"
    ensures AjaxIndex(r, id) == AjaxIndex(s, id) && AjaxOf(r, id) == rec
    ensures DataOf(r, id).verification.value == DataOf(s, id).verification.value[AjaxIndex(s, id) := rec]
    ensures forall x | x != id :: DataOf(r, x) == DataOf(s, x)
    ensures forall x :: RulesOf(r, x) == RulesOf(s, x)
    ensures r.options == s.options && r.dom == s.dom && r.errorList == s.errorList
    ensures r.ajax == s.ajax && r.bindings == s.bindings
  {
    var d := DataOf(s, id);
    var recs := d.verification.value[AjaxIndex(s, id) := rec];
    assert VerifyNames(recs) == VerifyNames(d.verification.value);
    s.(data := s.data[id := d.(verification := Some(recs))])
  }

  /** `verify.ajax.initiate`: the previous request, whichever field issued
      it, is aborted (its response will never be handled), the field's
      `ajax` record is marked in progress, and a new request is issued at
      once (`request(url)` is called, not deferred, by the `setTimeout`
      line). */
  function Initiate(s: State, id: string, url: string): (r: State)
    requires AjaxIndex(s, id) >= 0
    ensures r.ajax == Ajax(Some(Request(s.ajax.issued, id, url)), s.ajax.issued + 1)
    ensures AjaxIndex(r, id) >= 0 && AjaxOf(r, id) == AjaxOf(s, id).(inprogress := true)
    ensures forall x | x != id :: DataOf(r, x) == DataOf(s, x)
    ensures forall x :: RulesOf(r, x) == RulesOf(s, x)
    ensures r.options == s.options && r.dom == s.dom && r.errorList == s.errorList
  {
    var s1 := WithAjax(s, id, AjaxOf(s, id).(inprogress := true));
    s1.(ajax := Ajax(Some(Request(s.ajax.issued, id, url)), s.ajax.issued + 1))
  }

  /** `verifyCheck`: the url is the `ajax` record's url with the raw value
      appended (reading it throws when there is no `ajax` record); an empty
      value returns false without a request. */
  function VerifyCheck(s: State, id: string, v: string): (r: Run<State>)
    ensures AjaxIndex(s, id) < 0 ==> r == Run(s, Some(NoAjaxRecord(id)))
    ensures AjaxIndex(s, id) >= 0 && v == "" ==> r == Run(s, None)
    ensures AjaxIndex(s, id) >= 0 && v != "" ==>
      && !r.Threw()
      && r.value.ajax.live == Some(Request(s.ajax.issued, id, AjaxOf(s, id).url + v))
      && AjaxIndex(r.value, id) >= 0 && AjaxOf(r.value, id).inprogress
    ensures forall x | x != id :: DataOf(r.value, x) == DataOf(s, x)
    ensures forall x :: RulesOf(r.value, x) == RulesOf(s, x)
    ensures r.value.options == s.options && r.value.dom == s.dom && r.value.errorList == s.errorList
  {
    if AjaxIndex(s, id) < 0 then Run(s, Some(NoAjaxRecord(id)))
    else
      var url := AjaxOf(s, id).url + v;
      if v == "" then Run(s, None) else Run(Initiate(s, id, url), None)
  }

  /** The verification loop of `checkValidity`: `verifyCheck` once per
      verification record, stopping at a throw. */
  function VerifyEach(s: State, id: string, v: string, n: nat): (r: Run<State>)
    decreases n
    ensures forall x | x != id :: DataOf(r.value, x) == DataOf(s, x)
    ensures forall x :: RulesOf(r.value, x) == RulesOf(s, x)
    ensures r.value.options == s.options && r.value.dom == s.dom && r.value.errorList == s.errorList
  {
    if n == 0 then Run(s, None)
    else
      var r := VerifyCheck(s, id, v);
      if r.Threw() then r else VerifyEach(r.value, id, v, n - 1)
  }

  /** The verdict the response handler derives: `value === 'true' || value === true`. */
  predicate Confirmed(body: Json) {
    body == JString("true") || body == JBool(true)
  }

  /** Every verification record of `f` other than `ajax` is valid. */
  predicate OthersConfirmed(s: State, f: string)
    requires AjaxIndex(s, f) >= 0
  {
    var recs := DataOf(s, f).verification.value;
    forall k | 0 <= k < |recs| && k != AjaxIndex(s, f) :: recs[k].valid
  }

  /** With the `ajax` record at `i` set to `ok`, some verification check
      fails exactly when `ok` is false or another record is invalid. */
  lemma SettledChecks(recs: seq<VerifyRecord>, i: nat, ok: bool)
    requires i < |recs|
    ensures AnyInvalid(VerifyChecks(recs[i := recs[i].(valid := ok)])) <==>
      !ok || exists k | 0 <= k < |recs| && k != i :: !recs[k].valid
  {
    var checks := VerifyChecks(recs[i := recs[i].(valid := ok)]);
    assert checks[i].valid == ok;
    forall k | 0 <= k < |recs| && k != i
      ensures checks[k].valid == recs[k].valid
    {
    }
  }

  /** The body of the done-callback once the response has parsed: the
      field's `ajax` record takes the verdict, the error list is updated
      from the verification records alone (the rule records are not
      consulted, so an accepted verdict can unlist a field whose rules
      fail), and the request is no longer in progress. */
  function Settle(s: State, f: string, body: Json): (r: State)
    requires AjaxIndex(s, f) >= 0
    ensures AjaxIndex(r, f) >= 0
    ensures AjaxOf(r, f) == AjaxOf(s, f).(valid := Confirmed(body), inprogress := false)
    ensures !Confirmed(body) || !OthersConfirmed(s, f) ==> f in r.errorList
    ensures Confirmed(body) && OthersConfirmed(s, f) && NoDup(s.errorList) && IndexOf(s.errorList, f) != 0 ==>
      f !in r.errorList
    ensures IndexOf(s.errorList, f) == 0 ==> r.errorList == s.errorList
    ensures NoDup(s.errorList) ==> NoDup(r.errorList)
    ensures Without(r.errorList, f) == Without(s.errorList, f)
    ensures forall x :: RulesOf(r, x) == RulesOf(s, x)
    ensures r.options == s.options && r.dom == s.dom && r.ajax == s.ajax
  {
    var s1 := WithAjax(s, f, AjaxOf(s, f).(valid := Confirmed(body)));
    var checks := VerifyChecks(DataOf(s1, f).verification.value);
    SettledChecks(DataOf(s, f).verification.value, AjaxIndex(s, f), Confirmed(body));
    var s2 := s1.(errorList := UpdateErrorList(s1.errorList, f, checks));
    assert DataOf(s2, f) == DataOf(s1, f);
    assert AjaxIndex(s2, f) == AjaxIndex(s1, f) && AjaxOf(s2, f) == AjaxOf(s1, f);
    assert forall x :: RulesOf(s2, x) == RulesOf(s1, x);
    WithAjax(s2, f, AjaxOf(s1, f).(inprogress := false))
  }

  /** `verify.ajax.response`'s done-callback, run when request `reqId`
      completes with `body`. Only the live request's callback can run: an
      aborted request never completes. */
  function Respond(s: State, reqId: nat, body: Json): (r: Run<State>)
    ensures (s.ajax.live.None? || s.ajax.live.value.id != reqId) ==> r == Run(s, None)
    ensures s.ajax.live.Some? && s.ajax.live.value.id == reqId ==> r.value.ajax.live.None?
    ensures s.ajax.live.Some? && s.ajax.live.value.id == reqId && body.Malformed? ==>
      r.fault == Some(MalformedJson) && r.value.data == s.data && r.value.errorList == s.errorList
    ensures s.ajax.live.Some? && s.ajax.live.value.id == reqId && !body.Malformed?
            && AjaxIndex(s, s.ajax.live.value.field) >= 0 ==>
      var f := s.ajax.live.value.field;
      && !r.Threw()
      && AjaxIndex(r.value, f) >= 0
      && AjaxOf(r.value, f) == AjaxOf(s, f).(valid := Confirmed(body), inprogress := false)
      && (!Confirmed(body) || !OthersConfirmed(s, f) ==> f in r.value.errorList)
      && (Confirmed(body) && OthersConfirmed(s, f) && NoDup(s.errorList) && IndexOf(s.errorList, f) != 0 ==>
            f !in r.value.errorList)
      && (IndexOf(s.errorList, f) == 0 ==> r.value.errorList == s.errorList)
      && Without(r.value.errorList, f) == Without(s.errorList, f)
    ensures forall x :: RulesOf(r.value, x) == RulesOf(s, x)
    ensures r.value.options == s.options && r.value.dom == s.dom
  {
    if s.ajax.live.None? || s.ajax.live.value.id != reqId then Run(s, None)
    else
      var f := s.ajax.live.value.field;
      var s1 := s.(ajax := s.ajax.(live := None));
      assert DataOf(s1, f) == DataOf(s, f);
      assert AjaxIndex(s1, f) == AjaxIndex(s, f) && (AjaxIndex(s, f) >= 0 ==> AjaxOf(s1, f) == AjaxOf(s, f));
      assert AjaxIndex(s, f) >= 0 ==> (OthersConfirmed(s1, f) <==> OthersConfirmed(s, f));
      if body.Malformed? then Run(s1, Some(MalformedJson))
      else if AjaxIndex(s1, f) < 0 then Run(s1, Some(NoAjaxRecord(f)))
      else Run(Settle(s1, f, body), None)
  }

  /** A request that fails or times out never runs its done-callback: the
      slot is freed and the field stays in progress. */
  function Fail(s: State, reqId: nat): (r: State)
    ensures r.data == s.data && r.errorList == s.errorList
    ensures r.ajax.live.None? || r.ajax.live.value.id != reqId
  {
    if s.ajax.live.Some? && s.ajax.live.value.id == reqId then s.(ajax := s.ajax.(live := None)) else s
  }

  // ------------------------------------------------------------ checkValidity

  /** The rule records as `updateErrorList` reads them: none when the field
      has no rules. */
  function RuleRecs(s: State, id: string): seq<RuleRecord> {
    match RulesOf(s, id) case Some(recs) => recs case None => []
  }

  /** The rule half of `checkValidity`: the field's records are evaluated
      against its current value and stored back. */
  function RunRules(s: State, id: string): (r: Run<State>)
    requires id in s.dom
    ensures r.value.options == s.options && r.value.dom == s.dom && r.value.errorList == s.errorList
    ensures r.value.ajax == s.ajax
    ensures forall x | x != id :: DataOf(r.value, x) == DataOf(s, x)
    ensures DataOf(r.value, id).verification == DataOf(s, id).verification
    ensures RulesOf(s, id).None? ==> r == Run(s, None)
    ensures RulesOf(s, id).Some? ==>
      var ev := EvaluateRules(Lookup(s.options.rules, id), RulesOf(s, id).value, ValueOf(s, id), id);
      r.fault == ev.fault && RulesOf(r.value, id) == Some(ev.value)
  {
    var d := DataOf(s, id);
    if d.rules.None? then Run(s, None)
    else
      var ev := EvaluateRules(Lookup(s.options.rules, id), d.rules.value, ValueOf(s, id), id);
      Run(s.(data := s.data[id := d.(rules := Some(ev.value))]), ev.fault)
  }

  /** `checkValidity`: evaluate the rules, start the verifications, update
      the error list from the rule records. A missing element throws when
      `displayErrors` reads its tag name, after changing nothing. */
  function CheckValidity(s: State, id: string): (r: Run<State>)
    ensures r.value.options == s.options && r.value.dom == s.dom
    ensures forall x | x != id :: DataOf(r.value, x) == DataOf(s, x)
    ensures forall x | x != id :: RulesOf(r.value, x) == RulesOf(s, x)
    ensures !r.Threw() ==> id in s.dom
    ensures !r.Threw() ==>
      r.value.errorList == UpdateErrorList(s.errorList, id, RuleChecks(RuleRecs(r.value, id)))
    ensures !r.Threw() && RulesOf(s, id).Some? ==>
      var ev := EvaluateRules(Lookup(s.options.rules, id), RulesOf(s, id).value, ValueOf(s, id), id);
      !ev.Threw() && RulesOf(r.value, id) == Some(ev.value)
    ensures RulesOf(s, id).None? ==> RulesOf(r.value, id).None?
    ensures id in s.dom && DataOf(s, id).verification.None? && RulesOf(s, id).Some?
            && !EvaluateRules(Lookup(s.options.rules, id), RulesOf(s, id).value, ValueOf(s, id), id).Threw()
            ==> !r.Threw()
  {
    if id !in s.dom then Run(s, Some(MissingElement(id)))
    else
      var s1 := RunRules(s, id);
      if s1.Threw() then s1
      else
        var n := match DataOf(s, id).verification case Some(recs) => |recs| case None => 0;
        var vr := VerifyEach(s1.value, id, ValueOf(s, id), n);
        if vr.Threw() then vr
        else
          var s2 := vr.value;
          var s3 := s2.(errorList := UpdateErrorList(s2.errorList, id, RuleChecks(RuleRecs(s2, id))));
          assert s3.data == s2.data;
          assert forall x :: RulesOf(s3, x) == RulesOf(s1.value, x) by {
            forall x ensures RulesOf(s3, x) == RulesOf(s1.value, x) {
              assert RulesOf(s3, x) == RulesOf(s2, x);
            }
          }
          assert forall x | x != id :: RulesOf(s3, x) == RulesOf(s, x) by {
            forall x | x != id ensures RulesOf(s3, x) == RulesOf(s, x) {
              assert DataOf(s1.value, x) == DataOf(s, x);
            }
          }
          Run(s3, None)
  }

  /** `checkAll`: `checkValidity` for each configured id, in order. */
  function CheckAll(s: State, ids: seq<string>): (r: Run<State>)
    ensures r.value.options == s.options && r.value.dom == s.dom
    decreases |ids|
  {
    if |ids| == 0 then Run(s, None)
    else
      var r := CheckValidity(s, ids[0]);
      if r.Threw() then r else CheckAll(r.value, ids[1..])
  }

  /** `validation`: empty the list, then check every field with rules, then
      every field with verifications. */
  function Validation(s: State): (r: Run<State>)
    ensures r.value.options == s.options && r.value.dom == s.dom
  {
    var r1 := CheckAll(s.(errorList := []), Keys(s.options.rules));
    if r1.Threw() then r1 else CheckAll(r1.value, Keys(s.options.verification))
  }

  /** `onsubmit`. With `debug` the default is prevented and nothing runs.
      Otherwise the form is validated; an exception escapes before
      `preventDefault` is reached; an invalid form is prevented. */
  function OnSubmit(s: State): (r: Run<(State, Decision)>)
    ensures s.options.debug ==> r == Run((s, Decision(true, true)), None)
    ensures !s.options.debug ==> r.value.0 == Validation(s).value && r.fault == Validation(s).fault
    ensures !s.options.debug && !r.Threw() ==>
      (r.value.1.preventDefault <==> !FormValid(Validation(s).value.errorList))
    ensures r.value.1.preventDefault <==> r.value.1.returnsFalse
  {
    if s.options.debug then Run((s, Decision(true, true)), None)
    else
      var v := Validation(s);
      if v.Threw() then Run((v.value, Decision(false, false)), v.fault)
      else if !FormValid(v.value.errorList) then Run((v.value, Decision(true, true)), None)
      else Run((v.value, Decision(false, false)), None)
  }

  // ------------------------------------------------------------ validation

  /** Field `x` currently has a failing rule record. */
  predicate Failing(s: State, x: string) {
    AnyInvalid(RuleChecks(RuleRecs(s, x)))
  }

  /** Field `x` is on the page and its records already hold the verdicts
      for its current value: checking it again changes nothing. */
  predicate Settled(s: State, x: string) {
    && x in s.dom
    && (RulesOf(s, x).Some? ==>
         var ev := EvaluateRules(Lookup(s.options.rules, x), RulesOf(s, x).value, ValueOf(s, x), x);
         !ev.Threw() && ev.value == RulesOf(s, x).value)
  }

  /** What `validation` maintains once the fields `done` have been checked:
      the list holds each id at most once, exactly the checked fields with a
      failing rule, and every checked field is settled. */
  ghost predicate Inv(s: State, done: seq<string>) {
    && NoDup(s.errorList)
    && (forall x :: x in s.errorList <==> x in done && Failing(s, x))
    && (forall x | x in done :: Settled(s, x))
  }

  /** One `checkValidity` keeps the invariant. The head-of-list quirk of
      `removeError` cannot bite here: an id at the head was checked before
      with the same value, and re-evaluating settled records gives the same
      verdicts, so it is still failing. */
  lemma CheckValidityKeepsInv(s: State, done: seq<string>, id: string)
    requires Inv(s, done)
    requires !CheckValidity(s, id).Threw()
    ensures Inv(CheckValidity(s, id).value, done + [id])
  {
    var r := CheckValidity(s, id).value;
    var cfg := Lookup(s.options.rules, id);
    assert ValueOf(r, id) == ValueOf(s, id);
    if RulesOf(s, id).Some? {
      EvaluateRulesIdempotent(cfg, RulesOf(s, id).value, ValueOf(s, id), id);
    }
    assert Settled(r, id);
    forall x | x in done + [id]
      ensures Settled(r, x)
    {
      if x != id {
        assert x in done;
        assert RulesOf(r, x) == RulesOf(s, x);
      }
    }
    var checks := RuleChecks(RuleRecs(r, id));
    assert r.errorList == UpdateErrorList(s.errorList, id, checks);
    assert IndexOf(s.errorList, id) == 0 ==> Failing(r, id) by {
      if IndexOf(s.errorList, id) == 0 {
        assert id in done && Failing(s, id);
        assert RulesOf(r, id) == RulesOf(s, id);
      }
    }
    forall x
      ensures x in r.errorList <==> x in done + [id] && Failing(r, x)
    {
      if x != id {
        WithoutKeepsOthers(r.errorList, s.errorList, id, x);
        assert RulesOf(r, x) == RulesOf(s, x);
      }
    }
  }

  lemma {:induction false} CheckAllKeepsInv(s: State, done: seq<string>, ids: seq<string>)
    requires Inv(s, done)
    requires !CheckAll(s, ids).Threw()
    ensures Inv(CheckAll(s, ids).value, done + ids)
    decreases |ids|
  {
    if |ids| > 0 {
      CheckValidityKeepsInv(s, done, ids[0]);
      assert done + ids == (done + [ids[0]]) + ids[1..];
      CheckAllKeepsInv(CheckValidity(s, ids[0]).value, done + [ids[0]], ids[1..]);
    }
  }

  /** The fields `validation` visits: those with rules, then those with
      verifications. */
  function Configured(s: State): seq<string> {
    Keys(s.options.rules) + Keys(s.options.verification)
  }

  /** After a `validation` that does not throw, the error list holds exactly
      the configured fields with a failing rule, each once, and the form is
      valid exactly when no configured field fails. */
  lemma ValidationListsFailingFields(s: State)
    requires !Validation(s).Threw()
    ensures NoDup(Validation(s).value.errorList)
    ensures forall x :: x in Validation(s).value.errorList <==> x in Configured(s) && Failing(Validation(s).value, x)
    ensures forall x | x in Configured(s) :: Settled(Validation(s).value, x)
    ensures FormValid(Validation(s).value.errorList) <==>
      forall x | x in Configured(s) :: !Failing(Validation(s).value, x)
  {
    var s0 := s.(errorList := []);
    assert Inv(s0, []);
    CheckAllKeepsInv(s0, [], Keys(s.options.rules));
    var r1 := CheckAll(s0, Keys(s.options.rules));
    assert [] + Keys(s.options.rules) == Keys(s.options.rules);
    CheckAllKeepsInv(r1.value, Keys(s.options.rules), Keys(s.options.verification));
    var list := Validation(s).value.errorList;
    if !FormValid(list) {
      assert list[0] in list;
    }
  }

  /** On a settled field, failing means that some configured rule rejects
      the field's current value. */
  lemma SettledMeaning(s: State, x: string)
    requires Settled(s, x) && RulesOf(s, x).Some?
    ensures Failing(s, x) <==>
      exists j | 0 <= j < |RulesOf(s, x).value| ::
        !Step(Lookup(s.options.rules, x), RulesOf(s, x).value[j], ValueOf(s, x), x).value.valid
  {
    var recs := RulesOf(s, x).value;
    var cfg := Lookup(s.options.rules, x);
    var v := ValueOf(s, x);
    assert forall j | 0 <= j < |recs| :: recs[j].valid == Step(cfg, recs[j], v, x).value.valid;
    if Failing(s, x) {
      var i :| 0 <= i < |recs| && !RuleChecks(recs)[i].valid;
      assert !Step(cfg, recs[i], v, x).value.valid;
    } else {
      forall j | 0 <= j < |recs|
        ensures Step(cfg, recs[j], v, x).value.valid
      {
        assert RuleChecks(recs)[j].valid;
      }
    }
  }

  /** The submit handler outside debug mode, when nothing throws, blocks the
      submission exactly when a configured field fails one of its rules. */
  lemma OnSubmitBlocksInvalidForms(s: State)
    requires !s.options.debug && !OnSubmit(s).Threw()
    ensures OnSubmit(s).value.1.preventDefault <==>
      exists x | x in Configured(s) :: Failing(Validation(s).value, x)
  {
    ValidationListsFailingFields(s);
  }

  /** `removeError` as written, seen through `onkeyup`: a field that was
      checked while empty sits at the head of the list; once the user types
      a value that passes, the field no longer fails but stays listed. */
  lemma StaleHeadAfterKeyup(s: State)
    requires s.options.rules == [Entry("a", [Entry("required", Text("needed"))])]
    requires s.dom == map["a" := Element("input", "text", "x")]
    requires s.data == map["a" := FieldData(Some([RuleRecord("required", Text("needed"), false)]), None)]
    requires s.errorList == ["a"]
    ensures var r := CheckValidity(s, "a");
      && Failing(s, "a")
      && !r.Threw() && !Failing(r.value, "a")
      && r.value.errorList == ["a"] && !FormValid(r.value.errorList)
  {
    var recs := [RuleRecord("required", Text("needed"), false)];
    assert RuleChecks(recs)[0].valid == false;
    RequiredPassesOnText(s);
    var after := [RuleRecord("required", Text("needed"), true)];
    var r := CheckValidity(s, "a");
    assert !r.Threw();
    assert RulesOf(r.value, "a") == Some(after);
    assert !AnyInvalid(RuleChecks(after)) by {
      assert RuleChecks(after)[0].valid;
    }
    assert IndexOf(s.errorList, "a") == 0;
  }

  /** The field of the example above: its `required` rule fails before the
      keyup and, with the value `x`, passes after it. */
  lemma RequiredPassesOnText(s: State)
    requires s.options.rules == [Entry("a", [Entry("required", Text("needed"))])]
    requires s.dom == map["a" := Element("input", "text", "x")]
    requires s.data == map["a" := FieldData(Some([RuleRecord("required", Text("needed"), false)]), None)]
    ensures "a" in s.dom && DataOf(s, "a").verification.None? && RulesOf(s, "a").Some?
    ensures EvaluateRules(Lookup(s.options.rules, "a"), RulesOf(s, "a").value, ValueOf(s, "a"), "a")
            == Run([RuleRecord("required", Text("needed"), true)], None)
  {
    var recs := [RuleRecord("required", Text("needed"), false)];
    assert RulesOf(s, "a") == Some(recs);
    assert ValueOf(s, "a") == "x" by {
      assert StripCR("x") == "x";
    }
    var cfg := Lookup(s.options.rules, "a");
    assert cfg == Some([Entry("required", Text("needed"))]);
    assert Lookup([Entry("required", Text("needed"))], "required") == Some(Text("needed"));
    assert Required("x") by {
      assert Trim("x") == "x";
    }
    assert Evaluate("required", "x", Text("needed")) == Ok(Builtins.Verdict(true, None));
    assert Step(cfg, recs[0], "x", "a") == Ok(Builtins.Verdict(true, None));
    assert FirstThrow(cfg, recs, "x", "a") == 1;
    var ev := EvaluateRules(cfg, recs, "x", "a");
    assert |ev.value| == 1 && !ev.Threw();
    assert ev.value[0] == Apply(recs[0], Builtins.Verdict(true, None)) == RuleRecord("required", Text("needed"), true);
    assert ev.value == [RuleRecord("required", Text("needed"), true)];
    assert ev.fault == None;
  }

  // ------------------------------------------------------------ ajax races

  /** A second `initiate`, for any field, aborts the first request: its
      response is never applied, whatever it says. */
  lemma SupersededResponseIgnored(s: State, a: string, b: string, u1: string, u2: string, body: Json)
    requires AjaxIndex(s, a) >= 0 && AjaxIndex(Initiate(s, a, u1), b) >= 0
    ensures var s2 := Initiate(Initiate(s, a, u1), b, u2);
      Respond(s2, s.ajax.issued, body) == Run(s2, None)
  {
  }

  /** When another field's verification aborts field `a`'s request, `a`
      stays in progress and keeps its earlier verdict: the shared request
      slot loses `a`'s answer. */
  lemma CrossFieldAbortStrandsField(s: State, a: string, b: string, u1: string, u2: string)
    requires a != b
    requires AjaxIndex(s, a) >= 0 && AjaxIndex(Initiate(s, a, u1), b) >= 0
    ensures var s2 := Initiate(Initiate(s, a, u1), b, u2);
      && AjaxIndex(s2, a) >= 0
      && AjaxOf(s2, a) == AjaxOf(s, a).(inprogress := true)
      && s2.ajax.live.value.field == b
  {
    var s1 := Initiate(s, a, u1);
    assert DataOf(Initiate(s1, b, u2), a) == DataOf(s1, a);
  }

  /** A response to the live request settles that field's `ajax` record:
      after it, the field is no longer in progress and a negative answer
      lists the field. */
  lemma LiveResponseSettles(s: State, id: string, url: string, body: Json)
    requires AjaxIndex(s, id) >= 0 && !body.Malformed?
    ensures var s1 := Initiate(s, id, url);
      var r := Respond(s1, s.ajax.issued, body);
      && !r.Threw()
      && AjaxOf(r.value, id) == AjaxOf(s, id).(valid := Confirmed(body), inprogress := false)
      && (!Confirmed(body) ==> id in r.value.errorList)
  {
  }

  /** The rules and the verifications share one error list, and the
      response handler updates it from the verification records alone: an
      accepted answer unlists a field whose `required` rule still fails. */
  lemma AcceptedVerificationUnlistsFailingField(s: State)
    requires s.errorList == ["b", "f"]
    requires s.data == map["f" := FieldData(Some([RuleRecord("required", Text("needed"), false)]),
                                            Some([VerifyRecord("ajax", "taken", "/check?v=", false, true)]))]
    requires s.ajax.live == Some(Request(0, "f", "/check?v=x"))
    ensures var r := Respond(s, 0, JBool(true));
      && !r.Threw()
      && "f" !in r.value.errorList
      && AnyInvalid(RuleChecks(RulesOf(r.value, "f").value))
  {
    var recs := DataOf(s, "f").verification.value;
    assert VerifyNames(recs) == ["ajax"];
    assert AjaxIndex(s, "f") == 0;
    assert OthersConfirmed(s, "f");
    assert NoDup(s.errorList);
    assert IndexOf(s.errorList, "f") == 1;
    assert Confirmed(JBool(true));
    var r := Respond(s, 0, JBool(true));
    assert RulesOf(r.value, "f") == RulesOf(s, "f");
    assert !RuleChecks(RulesOf(s, "f").value)[0].valid;
  }

  // ------------------------------------------------------------ setup

  /** `seteventhandler`: change handlers for the `onchangeElements` types
      and keyup/blur handlers for the `onkeyupElements` types, both only
      when `onchange` is set, and a submit handler when the type is
      `'submit'`. */
  function Handlers(o: Options, t: Target, kind: string): (bs: seq<Binding>)
    ensures Binding(t, Change) in bs <==> o.onchange && Listed(kind, o.onchangeElements)
    ensures Binding(t, Keyup) in bs <==> o.onchange && Listed(kind, o.onkeyupElements)
    ensures Binding(t, Blur) in bs <==> Binding(t, Keyup) in bs
    ensures Binding(t, Submit) in bs <==> kind == "submit"
    ensures forall b | b in bs :: b.target == t
  {
    (if o.onchange && Listed(kind, o.onchangeElements) then [Binding(t, Change)] else [])
    + (if o.onchange && Listed(kind, o.onkeyupElements) then [Binding(t, Keyup), Binding(t, Blur)] else [])
    + (if kind == "submit" then [Binding(t, Submit)] else [])
  }
  /** One visit of the first loop of `setuprules`. A missing element throws
      in `inputtype`; an element that is not a form control has its rules
      deleted and is skipped; any other gets its rule records and its
      handlers. */
  function SetupRuleField(s: State, e: Entry<Table<Setting>>): (r: Run<State>)
    ensures r.Threw() <==> e.key !in s.dom
    ensures r.value.dom == s.dom && r.value.errorList == s.errorList && r.value.ajax == s.ajax
    ensures r.value.options.verification == s.options.verification
    ensures forall x | x != e.key :: DataOf(r.value, x) == DataOf(s, x)
    ensures forall x | x != e.key :: Lookup(r.value.options.rules, x) == Lookup(s.options.rules, x)
    ensures e.key in s.dom && ValidInputType(s.dom[e.key]) ==>
      RulesOf(r.value, e.key) == Some(SetValidationRules(e.val)) && r.value.options.rules == s.options.rules
    ensures e.key in s.dom && !ValidInputType(s.dom[e.key]) ==> !HasKey(r.value.options.rules, e.key)
    ensures forall en | en in r.value.options.rules :: en in s.options.rules
    ensures forall b | b in r.value.bindings :: b in s.bindings || b.target.Field?
  {
    if e.key !in s.dom then Run(s, Some(MissingElement(e.key)))
    else
      var el := s.dom[e.key];
      if !ValidInputType(el) then Run(s.(options := s.options.(rules := Delete(s.options.rules, e.key))), None)
      else
        Run(s.(data := s.data[e.key := DataOf(s, e.key).(rules := Some(SetValidationRules(e.val)))],
               bindings := s.bindings + Handlers(s.options, Field(e.key), InputType(el))), None)
  }

  /** The first loop of `setuprules`, over the rule entries still to visit,
      stopping at a throw. */
  function SetupRuleFields(s: State, todo: Table<Table<Setting>>): (r: Run<State>)
    ensures r.value.dom == s.dom && r.value.errorList == s.errorList && r.value.ajax == s.ajax
    ensures r.value.options.verification == s.options.verification
    ensures forall en | en in r.value.options.rules :: en in s.options.rules
    ensures forall b | b in r.value.bindings :: b in s.bindings || b.target.Field?
    decreases |todo|
  {
    if |todo| == 0 then Run(s, None)
    else
      var r1 := SetupRuleField(s, todo[0]);
      if r1.Threw() then r1 else SetupRuleFields(r1.value, todo[1..])
  }

  /** A first loop that does not throw found every id on the page. */
  lemma {:induction false} SetupRuleFieldsFound(s: State, todo: Table<Table<Setting>>)
    requires !SetupRuleFields(s, todo).Threw()
    ensures forall i | 0 <= i < |todo| :: todo[i].key in s.dom
    decreases |todo|
  {
    if |todo| > 0 {
      var s1 := SetupRuleField(s, todo[0]).value;
      SetupRuleFieldsFound(s1, todo[1..]);
      assert forall i | 1 <= i < |todo| :: todo[i] == todo[1..][i - 1];
    }
  }

  /** The first loop touches neither the records nor the rules of an id it
      does not visit. */
  lemma {:induction false} SetupRuleFieldsUntouched(s: State, todo: Table<Table<Setting>>, x: string)
    requires x !in Keys(todo)
    ensures DataOf(SetupRuleFields(s, todo).value, x) == DataOf(s, x)
    ensures Lookup(SetupRuleFields(s, todo).value.options.rules, x) == Lookup(s.options.rules, x)
    decreases |todo|
  {
    if |todo| > 0 {
      assert x != Keys(todo)[0];
      assert Keys(todo[1..]) == Keys(todo)[1..];
      var r1 := SetupRuleField(s, todo[0]);
      if !r1.Threw() {
        SetupRuleFieldsUntouched(r1.value, todo[1..], x);
      }
    }
  }

  /** After a first loop that does not throw, every visited form control
      carries the records built from its entry and keeps its rules, and
      every visited non-control has lost its rules. */
  lemma {:induction false} SetupRuleFieldsControls(s: State, todo: Table<Table<Setting>>, i: nat)
    requires UniqueKeys(todo) && i < |todo| && !SetupRuleFields(s, todo).Threw()
    ensures var x := todo[i].key;
      var r := SetupRuleFields(s, todo).value;
      && x in s.dom
      && (ValidInputType(s.dom[x]) ==>
            RulesOf(r, x) == Some(SetValidationRules(todo[i].val))
            && Lookup(r.options.rules, x) == Lookup(s.options.rules, x))
      && (!ValidInputType(s.dom[x]) ==> !HasKey(r.options.rules, x))
    decreases |todo|
  {
    var s1 := SetupRuleField(s, todo[0]).value;
    assert UniqueKeys(todo[1..]) by {
      assert forall a | 0 <= a < |todo| - 1 :: todo[1..][a] == todo[a + 1];
    }
    if i == 0 {
      var x := todo[0].key;
      assert x !in Keys(todo[1..]) by {
        assert forall a | 0 <= a < |todo| - 1 :: Keys(todo[1..])[a] == todo[a + 1].key;
      }
      SetupRuleFieldsUntouched(s1, todo[1..], x);
      assert Lookup(s1.options.rules, x).None? <==> !HasKey(s1.options.rules, x);
    } else {
      assert todo[1..][i - 1] == todo[i];
      SetupRuleFieldsControls(s1, todo[1..], i - 1);
    }
  }

  /** One visit of the second loop of `setuprules`: the same as the first,
      except that the records are verification records, and an invalid
      element's id is deleted from the rules, not from the verifications. */
  function SetupVerifyField(s: State, e: Entry<Table<VerifySetting>>): (r: Run<State>)
    ensures r.Threw() <==> e.key !in s.dom
    ensures r.value.dom == s.dom && r.value.errorList == s.errorList && r.value.ajax == s.ajax
    ensures r.value.options.verification == s.options.verification
    ensures forall x :: RulesOf(r.value, x) == RulesOf(s, x)
    ensures forall x | x != e.key :: DataOf(r.value, x) == DataOf(s, x)
    ensures forall x | x != e.key :: Lookup(r.value.options.rules, x) == Lookup(s.options.rules, x)
    ensures e.key in s.dom && ValidInputType(s.dom[e.key]) ==>
      DataOf(r.value, e.key).verification == Some(SetVerificationRules(e.val))
      && r.value.options.rules == s.options.rules
    ensures e.key in s.dom && !ValidInputType(s.dom[e.key]) ==> !HasKey(r.value.options.rules, e.key)
    ensures forall en | en in r.value.options.rules :: en in s.options.rules
    ensures forall b | b in r.value.bindings :: b in s.bindings || b.target.Field?
  {
    if e.key !in s.dom then Run(s, Some(MissingElement(e.key)))
    else
      var el := s.dom[e.key];
      if !ValidInputType(el) then Run(s.(options := s.options.(rules := Delete(s.options.rules, e.key))), None)
      else
        var r := s.(data := s.data[e.key := DataOf(s, e.key).(verification := Some(SetVerificationRules(e.val)))],
                    bindings := s.bindings + Handlers(s.options, Field(e.key), InputType(el)));
        assert forall x :: RulesOf(r, x) == RulesOf(s, x);
        Run(r, None)
  }

  /** The second loop of `setuprules`, stopping at a throw. */
  function SetupVerifyFields(s: State, todo: Table<Table<VerifySetting>>): (r: Run<State>)
    ensures r.value.dom == s.dom && r.value.errorList == s.errorList && r.value.ajax == s.ajax
    ensures r.value.options.verification == s.options.verification
    ensures forall x :: RulesOf(r.value, x) == RulesOf(s, x)
    ensures forall en | en in r.value.options.rules :: en in s.options.rules
    ensures forall b | b in r.value.bindings :: b in s.bindings || b.target.Field?
    decreases |todo|
  {
    if |todo| == 0 then Run(s, None)
    else
      var r1 := SetupVerifyField(s, todo[0]);
      if r1.Threw() then r1 else SetupVerifyFields(r1.value, todo[1..])
  }

  /** A second loop that does not throw found every id on the page. */
  lemma {:induction false} SetupVerifyFieldsFound(s: State, todo: Table<Table<VerifySetting>>)
    requires !SetupVerifyFields(s, todo).Threw()
    ensures forall i | 0 <= i < |todo| :: todo[i].key in s.dom
    decreases |todo|
  {
    if |todo| > 0 {
      var s1 := SetupVerifyField(s, todo[0]).value;
      SetupVerifyFieldsFound(s1, todo[1..]);
      assert forall i | 1 <= i < |todo| :: todo[i] == todo[1..][i - 1];
    }
  }

  /** The second loop touches neither the records nor the rules of an id
      it does not visit. */
  lemma {:induction false} SetupVerifyFieldsUntouched(s: State, todo: Table<Table<VerifySetting>>, x: string)
    requires x !in Keys(todo)
    ensures DataOf(SetupVerifyFields(s, todo).value, x) == DataOf(s, x)
    ensures Lookup(SetupVerifyFields(s, todo).value.options.rules, x) == Lookup(s.options.rules, x)
    decreases |todo|
  {
    if |todo| > 0 {
      assert x != Keys(todo)[0];
      assert Keys(todo[1..]) == Keys(todo)[1..];
      var r1 := SetupVerifyField(s, todo[0]);
      if !r1.Threw() {
        SetupVerifyFieldsUntouched(r1.value, todo[1..], x);
      }
    }
  }

  /** After a second loop that does not throw, every visited form control
      carries the verification records built from its entry and keeps its
      rules, and every visited non-control has lost its rules. */
  lemma {:induction false} SetupVerifyFieldsControls(s: State, todo: Table<Table<VerifySetting>>, i: nat)
    requires UniqueKeys(todo) && i < |todo| && !SetupVerifyFields(s, todo).Threw()
    ensures var x := todo[i].key;
      var r := SetupVerifyFields(s, todo).value;
      && x in s.dom
      && (ValidInputType(s.dom[x]) ==>
            DataOf(r, x).verification == Some(SetVerificationRules(todo[i].val))
            && Lookup(r.options.rules, x) == Lookup(s.options.rules, x))
      && (!ValidInputType(s.dom[x]) ==> !HasKey(r.options.rules, x))
    decreases |todo|
  {
    var s1 := SetupVerifyField(s, todo[0]).value;
    assert UniqueKeys(todo[1..]) by {
      assert forall a | 0 <= a < |todo| - 1 :: todo[1..][a] == todo[a + 1];
    }
    if i == 0 {
      var x := todo[0].key;
      assert x !in Keys(todo[1..]) by {
        assert forall a | 0 <= a < |todo| - 1 :: Keys(todo[1..])[a] == todo[a + 1].key;
      }
      SetupVerifyFieldsUntouched(s1, todo[1..], x);
      assert Lookup(s1.options.rules, x).None? <==> !HasKey(s1.options.rules, x);
    } else {
      assert todo[1..][i - 1] == todo[i];
      SetupVerifyFieldsControls(s1, todo[1..], i - 1);
    }
  }

  /** A form before `setuprules`: no records, no bindings, an empty error
      list and no request. */
  function Fresh(o: Options, dom: map<string, Element>): State {
    State(o, dom, map[], [], [], Ajax(None, 0))
  }

  /** The two loops of `setuprules`, the second skipped after a throw in
      the first. */
  function SetupLoops(o: Options, dom: map<string, Element>): (r: Run<State>)
    ensures r.value.dom == dom && r.value.errorList == [] && r.value.ajax == Ajax(None, 0)
    ensures r.value.options.verification == o.verification
    ensures forall b | b in r.value.bindings :: b.target.Field?
  {
    var r1 := SetupRuleFields(Fresh(o, dom), o.rules);
    if r1.Threw() then r1 else SetupVerifyFields(r1.value, o.verification)
  }

  /** `setuprules` on a fresh instance: both loops, then the form's submit
      handler when `onsubmit` is set. No request is live and the error list
      is empty. */
  function Setup(o: Options, dom: map<string, Element>): (r: Run<State>)
    ensures r.value.dom == dom && r.value.errorList == [] && r.value.ajax == Ajax(None, 0)
    ensures r.value.options.verification == o.verification
    ensures r.value.options == SetupLoops(o, dom).value.options && r.value.data == SetupLoops(o, dom).value.data
    ensures r.Threw() == SetupLoops(o, dom).Threw()
    ensures !r.Threw() ==> (Binding(Form, Submit) in r.value.bindings <==> o.onsubmit)
  {
    var r := SetupLoops(o, dom);
    if r.Threw() || !o.onsubmit then r
    else Run(r.value.(bindings := r.value.bindings + Handlers(r.value.options, Form, "submit")), None)
  }

  /** A setup that does not throw found every configured id on the page. */
  lemma SetupFindsEveryId(o: Options, dom: map<string, Element>)
    requires !Setup(o, dom).Threw()
    ensures forall x | x in Keys(o.rules) + Keys(o.verification) :: x in dom
  {
    var s0 := Fresh(o, dom);
    var r1 := SetupRuleFields(s0, o.rules);
    SetupRuleFieldsFound(s0, o.rules);
    SetupVerifyFieldsFound(r1.value, o.verification);
    forall x | x in Keys(o.rules) + Keys(o.verification)
      ensures x in dom
    {
      if x in Keys(o.rules) {
        var i :| 0 <= i < |o.rules| && Keys(o.rules)[i] == x;
      } else {
        var i :| 0 <= i < |o.verification| && Keys(o.verification)[i] == x;
      }
    }
  }

  /** One surviving rules entry of a setup that does not throw. */
  lemma SetupKeepsFormControl(o: Options, dom: map<string, Element>, e: Entry<Table<Setting>>)
    requires !Setup(o, dom).Threw() && UniqueKeys(o.rules)
    requires e in Setup(o, dom).value.options.rules
    ensures e.key in dom && ValidInputType(dom[e.key])
    ensures RulesOf(Setup(o, dom).value, e.key) == Some(SetValidationRules(e.val))
  {
    var s0 := Fresh(o, dom);
    var r1 := SetupRuleFields(s0, o.rules).value;
    var r2 := SetupVerifyFields(r1, o.verification).value;
    assert SetupLoops(o, dom).value == r2;
    var r := Setup(o, dom).value;
    assert r.options == r2.options && r.data == r2.data;
    assert RulesOf(r, e.key) == RulesOf(r2, e.key) == RulesOf(r1, e.key);
    assert e in r1.options.rules;
    assert e in o.rules by { assert s0.options.rules == o.rules; }
    var i :| 0 <= i < |o.rules| && o.rules[i] == e;
    assert HasKey(r1.options.rules, e.key) by {
      var j :| 0 <= j < |r1.options.rules| && r1.options.rules[j] == e;
    }
    SetupRuleFieldsControls(s0, o.rules, i);
  }

  /** Every field whose rules survive a setup that does not throw is a form
      control whose rule records are the ones built from its configuration. */
  lemma SetupKeepsFormControls(o: Options, dom: map<string, Element>)
    requires !Setup(o, dom).Threw() && UniqueKeys(o.rules)
    ensures forall e | e in Setup(o, dom).value.options.rules ::
      && e.key in dom && ValidInputType(dom[e.key])
      && RulesOf(Setup(o, dom).value, e.key) == Some(SetValidationRules(e.val))
  {
    forall e | e in Setup(o, dom).value.options.rules
      ensures e.key in dom && ValidInputType(dom[e.key])
      ensures RulesOf(Setup(o, dom).value, e.key) == Some(SetValidationRules(e.val))
    {
      SetupKeepsFormControl(o, dom, e);
    }
  }
}

=== FILE: legacy.dfy ===
/** The earlier iteration, `JsValidation/js/jquery.validation-0.2.0.js`:
    rules only, an `addError` that always appends, a `validation` that
    updates the error list a second time per field, and a submit handler
    that validates even in debug mode.
 */
module Legacy {
  import opened Results
  import opened Strings
  import opened Records
  import opened Builtins
  import opened ErrorLists
  import opened Forms
  import opened Evaluation

  /** The defaults of this version (no verifications; `onchange` is read
      nowhere). */
  const Defaults: Options := Options([], [], false, false, true, true,
                                     ["select", "checkbox", "file", "textarea"], ["text", "textarea"])

  /** The state of one bound form: `.data('rules')` per element. */
  datatype State = State(
    options: Options,
    dom: map<string, Element>,
    rules: map<string, seq<RuleRecord>>,
    errorList: seq<string>,
    bindings: seq<Binding>)

  // ------------------------------------------------------------ error list

  /** `n` copies of `x`. */
  function Repeat(x: string, n: nat): (r: seq<string>)
    ensures |r| == n && forall i | 0 <= i < n :: r[i] == x
  {
    seq(n, _ => x)
  }

  lemma {:induction false} RepeatCount(x: string, n: nat)
    ensures Count(Repeat(x, n), x) == n
    ensures Without(Repeat(x, n), x) == []
  {
    if n > 0 {
      assert Repeat(x, n)[1..] == Repeat(x, n - 1);
      RepeatCount(x, n - 1);
    }
  }

  /** `addError`: appends, whether or not the id is already listed. */
  function AddError(list: seq<string>, x: string): (r: seq<string>)
    ensures |r| == |list| + 1 && r[..|list|] == list && r[|list|] == x
  {
    list + [x]
  }

  /** The `$.each` of `updateErrorList`: one `addError` per failing check. */
  function AddEach<M>(list: seq<string>, id: string, checks: seq<Check<M>>): (r: seq<string>)
    ensures r == list + Repeat(id, InvalidCount(checks))
    decreases |checks|
  {
    if |checks| == 0 then list
    else
      var next := if checks[0].valid then list else AddError(list, id);
      var r := AddEach(next, id, checks[1..]);
      assert r == list + Repeat(id, InvalidCount(checks)) by {
        if !checks[0].valid {
          assert [id] + Repeat(id, InvalidCount(checks[1..])) == Repeat(id, InvalidCount(checks));
          assert list + [id] + Repeat(id, InvalidCount(checks[1..])) == list + ([id] + Repeat(id, InvalidCount(checks[1..])));
        }
      }
      r
  }

  /** `updateErrorList`: `removeError`, then one entry per failing check.
      The id's count drops by one only when it was listed past the head,
      and grows by the number of failing checks. */
  function UpdateErrorList<M>(list: seq<string>, id: string, checks: seq<Check<M>>): (r: seq<string>)
    ensures Without(r, id) == Without(list, id)
    ensures Count(r, id) == Count(list, id) - (if IndexOf(list, id) > 0 then 1 else 0) + InvalidCount(checks)
    ensures id in r <==> Count(r, id) > 0
  {
    var removed := RemoveError(list, id);
    WithoutAppend(removed, Repeat(id, InvalidCount(checks)), id);
    CountAppend(removed, Repeat(id, InvalidCount(checks)), id);
    RepeatCount(id, InvalidCount(checks));
    AddEach(removed, id, checks)
  }

  /** An unlisted id, updated with `k` failing checks, ends up in `k`
      consecutive entries starting at the old end of the list. */
  lemma UpdateUnlisted<M>(list: seq<string>, id: string, checks: seq<Check<M>>)
    requires id !in list
    ensures UpdateErrorList(list, id, checks) == list + Repeat(id, InvalidCount(checks))
    ensures InvalidCount(checks) > 0 ==> IndexOf(UpdateErrorList(list, id, checks), id) == |list|
  {
    var r := UpdateErrorList(list, id, checks);
    if InvalidCount(checks) > 0 {
      assert r[|list|] == id;
      assert forall j | 0 <= j < |list| :: r[j] == list[j];
    }
  }

  /** Two updates of an unlisted id from the same checks: the second
      `removeError` takes one entry back unless the id landed at the head. */
  lemma UpdateTwice<M>(list: seq<string>, id: string, checks: seq<Check<M>>)
    requires id !in list
    ensures var k := InvalidCount(checks);
      var r := UpdateErrorList(UpdateErrorList(list, id, checks), id, checks);
      && Count(r, id) == 2 * k - (if k > 0 && |list| > 0 then 1 else 0)
      && Without(r, id) == Without(list, id)
  {
    UpdateUnlisted(list, id, checks);
    var once := UpdateErrorList(list, id, checks);
    assert Count(once, id) == InvalidCount(checks);
  }

  // ------------------------------------------------------------ checkValidity

  function RuleRecs(s: State, id: string): seq<RuleRecord> {
    if id in s.rules then s.rules[id] else []
  }

  /** `elementValue`: the value with carriage returns removed. */
  function ValueOf(s: State, id: string): string
    requires id in s.dom
  {
    StripCR(s.dom[id].value)
  }

  /** Field `x` currently has a failing rule record. */
  predicate Failing(s: State, x: string) {
    AnyInvalid(RuleChecks(RuleRecs(s, x)))
  }

  /** `checkValidity`: evaluate the rules in place, then update the error
      list. A missing element throws when `displayErrors` reads its tag
      name, after changing nothing. */
  function CheckValidity(s: State, id: string): (r: Run<State>)
    ensures r.value.options == s.options && r.value.dom == s.dom && r.value.bindings == s.bindings
    ensures forall x | x != id :: RuleRecs(r.value, x) == RuleRecs(s, x)
    ensures !r.Threw() ==> id in s.dom
    ensures !r.Threw() ==> r.value.errorList == UpdateErrorList(s.errorList, id, RuleChecks(RuleRecs(r.value, id)))
    ensures !r.Threw() && id in s.rules ==>
      var ev := EvaluateRules(Lookup(s.options.rules, id), s.rules[id], ValueOf(s, id), id);
      !ev.Threw() && RuleRecs(r.value, id) == ev.value
    ensures r.Threw() ==> r.value.errorList == s.errorList
  {
    if id !in s.dom then Run(s, Some(MissingElement(id)))
    else if id !in s.rules then Run(s.(errorList := UpdateErrorList(s.errorList, id, RuleChecks([]))), None)
    else
      var ev := EvaluateRules(Lookup(s.options.rules, id), s.rules[id], ValueOf(s, id), id);
      var s1 := s.(rules := s.rules[id := ev.value]);
      assert forall x | x != id :: RuleRecs(s1, x) == RuleRecs(s, x);
      if ev.Threw() then Run(s1, ev.fault)
      else Run(s1.(errorList := UpdateErrorList(s.errorList, id, RuleChecks(ev.value))), None)
  }

  /** One iteration of `validation`: `checkValidity`, then a second
      `updateErrorList` from the same records. */
  function CheckField(s: State, id: string): (r: Run<State>)
    ensures r.value.options == s.options && r.value.dom == s.dom && r.value.bindings == s.bindings
    ensures forall x | x != id :: RuleRecs(r.value, x) == RuleRecs(s, x)
    ensures !r.Threw() ==> id in s.dom
    ensures !r.Threw() ==> Without(r.value.errorList, id) == Without(s.errorList, id)
  {
    var c := CheckValidity(s, id);
    if c.Threw() then c
    else Run(c.value.(errorList := UpdateErrorList(c.value.errorList, id, RuleChecks(RuleRecs(c.value, id)))), None)
  }

  /** A field not yet listed, failing `k` of its rules, is listed `2k`
      times after its iteration of `validation`, less the one entry the
      second `removeError` takes back when the field did not land at the
      head. */
  lemma CheckFieldCount(s: State, id: string)
    requires id !in s.errorList && !CheckField(s, id).Threw()
    ensures var r := CheckField(s, id).value;
      var k := InvalidCount(RuleChecks(RuleRecs(r, id)));
      Count(r.errorList, id) == 2 * k - (if k > 0 && |s.errorList| > 0 then 1 else 0)
  {
    var c := CheckValidity(s, id);
    UpdateTwice(s.errorList, id, RuleChecks(RuleRecs(c.value, id)));
  }

  function CheckFields(s: State, ids: seq<string>): (r: Run<State>)
    ensures r.value.options == s.options && r.value.dom == s.dom && r.value.bindings == s.bindings
    decreases |ids|
  {
    if |ids| == 0 then Run(s, None)
    else
      var r := CheckField(s, ids[0]);
      if r.Threw() then r else CheckFields(r.value, ids[1..])
  }

  /** `validation`: empty the list, then check every field with rules. */
  function Validation(s: State): (r: Run<State>)
    ensures r.value.options == s.options && r.value.dom == s.dom && r.value.bindings == s.bindings
  {
    CheckFields(s.(errorList := []), Keys(s.options.rules))
  }

  /** What `validation` maintains once the fields `done` have been checked:
      only checked ids are listed, and a checked id is listed exactly when
      it fails. */
  ghost predicate Inv(s: State, done: seq<string>) {
    && (forall x | x in s.errorList :: x in done)
    && (forall x | x in done :: x in s.errorList <==> Failing(s, x))
  }

  lemma CheckFieldKeepsInv(s: State, done: seq<string>, id: string)
    requires Inv(s, done) && id !in done
    requires !CheckField(s, id).Threw()
    ensures Inv(CheckField(s, id).value, done + [id])
  {
    var r := CheckField(s, id).value;
    assert id !in s.errorList;
    CheckFieldCount(s, id);
    forall x | x in r.errorList
      ensures x in done + [id]
    {
      if x != id {
        WithoutKeepsOthers(r.errorList, s.errorList, id, x);
      }
    }
    forall x | x in done + [id]
      ensures x in r.errorList <==> Failing(r, x)
    {
      if x != id {
        WithoutKeepsOthers(r.errorList, s.errorList, id, x);
      } else {
        assert Failing(r, id) <==> InvalidCount(RuleChecks(RuleRecs(r, id))) > 0;
      }
    }
  }

  lemma {:induction false} CheckFieldsKeepsInv(s: State, done: seq<string>, ids: seq<string>)
    requires Inv(s, done)
    requires forall i, j | 0 <= i < |done| && 0 <= j < |ids| :: done[i] != ids[j]
    requires forall i, j | 0 <= i < j < |ids| :: ids[i] != ids[j]
    requires !CheckFields(s, ids).Threw()
    ensures Inv(CheckFields(s, ids).value, done + ids)
    decreases |ids|
  {
    if |ids| > 0 {
      assert forall i | 0 <= i < |done| :: done[i] != ids[0];
      CheckFieldKeepsInv(s, done, ids[0]);
      var done' := done + [ids[0]];
      assert done + ids == done' + ids[1..];
      forall i, j | 0 <= i < |done'| && 0 <= j < |ids[1..]|
        ensures done'[i] != ids[1..][j]
      {
        assert ids[1..][j] == ids[j + 1];
      }
      forall i, j | 0 <= i < j < |ids[1..]|
        ensures ids[1..][i] != ids[1..][j]
      {
        assert ids[1..][i] == ids[i + 1] && ids[1..][j] == ids[j + 1];
      }
      CheckFieldsKeepsInv(CheckField(s, ids[0]).value, done', ids[1..]);
    }
  }

  /** After a `validation` that does not throw, over a configuration whose
      ids are distinct (as an object's keys are), exactly the configured
      fields with a failing rule are listed, so the form is valid exactly
      when no configured field fails. */
  lemma ValidationListsFailingFields(s: State)
    requires UniqueKeys(s.options.rules)
    requires !Validation(s).Threw()
    ensures forall x :: x in Validation(s).value.errorList <==>
      x in Keys(s.options.rules) && Failing(Validation(s).value, x)
    ensures FormValid(Validation(s).value.errorList) <==>
      forall x | x in Keys(s.options.rules) :: !Failing(Validation(s).value, x)
  {
    var ids := Keys(s.options.rules);
    assert Inv(s.(errorList := []), []);
    assert [] + ids == ids;
    CheckFieldsKeepsInv(s.(errorList := []), [], ids);
    var list := Validation(s).value.errorList;
    if !FormValid(list) {
      assert list[0] in list;
    }
  }

  /** A field that is still failing when re-checked from the head of the
      list gains entries instead of being replaced: `removeError` skips
      index 0 and `addError` appends once per failing rule. */
  lemma HeadFieldAccumulates(s: State, id: string)
    requires IndexOf(s.errorList, id) == 0
    requires !CheckValidity(s, id).Threw()
    ensures var r := CheckValidity(s, id).value;
      Count(r.errorList, id) == Count(s.errorList, id) + InvalidCount(RuleChecks(RuleRecs(r, id)))
  {
  }

  /** The first field `validation` finds failing `k` of its rules is listed
      `2k` times: once per failing rule by `checkValidity`, and again by the
      extra `updateErrorList`, whose `removeError` cannot take back the
      entry at the head. */
  lemma FirstFailingFieldDoubled(s: State, id: string)
    requires s.errorList == [] && !CheckField(s, id).Threw()
    ensures var r := CheckField(s, id).value;
      Count(r.errorList, id) == 2 * InvalidCount(RuleChecks(RuleRecs(r, id)))
      && r.errorList == Repeat(id, Count(r.errorList, id))
  {
    var r := CheckField(s, id).value;
    CheckFieldCount(s, id);
    assert Without(r.errorList, id) == [];
    WithoutEmpty(r.errorList, id);
  }

  /** A list with no entry other than `x` is a run of `x`. */
  lemma {:induction false} WithoutEmpty(list: seq<string>, x: string)
    requires Without(list, x) == []
    ensures list == Repeat(x, Count(list, x))
  {
    if |list| > 0 {
      WithoutEmpty(list[1..], x);
      assert list == [list[0]] + list[1..];
    }
  }

  // ------------------------------------------------------------ submit

  /** `onsubmit`: `debug` prevents the default, but validation runs all the
      same; an invalid form is prevented and `false` returned. An exception
      escapes after the debug `preventDefault` and before the rest. */
  function OnSubmit(s: State): (r: Run<(State, Decision)>)
    ensures r.value.0 == Validation(s).value && r.fault == Validation(s).fault
    ensures s.options.debug ==> r.value.1.preventDefault
    ensures !r.Threw() ==>
      && (r.value.1.returnsFalse <==> !FormValid(Validation(s).value.errorList))
      && (r.value.1.preventDefault <==> s.options.debug || r.value.1.returnsFalse)
    ensures r.Threw() ==> r.value.1 == Decision(s.options.debug, false)
  {
    var v := Validation(s);
    if v.Threw() then Run((v.value, Decision(s.options.debug, false)), v.fault)
    else if !FormValid(v.value.errorList) then Run((v.value, Decision(true, true)), None)
    else Run((v.value, Decision(s.options.debug, false)), None)
  }

  // ------------------------------------------------------------ setup

  /** `seteventhandler`: change handlers for the `onchangeElements` types,
      keyup/blur handlers for the `onkeyupElements` types, and a submit
      handler for the type `'submit'`. The `onchange` option is not read. */
  function Handlers(o: Options, t: Target, kind: string): (bs: seq<Binding>)
    ensures Binding(t, Change) in bs <==> Listed(kind, o.onchangeElements)
    ensures Binding(t, Keyup) in bs <==> Listed(kind, o.onkeyupElements)
    ensures Binding(t, Blur) in bs <==> Binding(t, Keyup) in bs
    ensures Binding(t, Submit) in bs <==> kind == "submit"
    ensures forall b | b in bs :: b.target == t
  {
    (if Listed(kind, o.onchangeElements) then [Binding(t, Change)] else [])
    + (if Listed(kind, o.onkeyupElements) then [Binding(t, Keyup), Binding(t, Blur)] else [])
    + (if kind == "submit" then [Binding(t, Submit)] else [])
  }

  /** One visit of the loop of `setuprules`. A missing element throws in
      `inputtype`; an element that is not a form control has its rules
      deleted and is skipped; any other gets its rule records and its
      handlers. */
  function SetupField(s: State, e: Entry<Table<Setting>>): (r: Run<State>)
    ensures r.Threw() <==> e.key !in s.dom
    ensures r.value.dom == s.dom && r.value.errorList == s.errorList
    ensures forall x | x != e.key :: RuleRecs(r.value, x) == RuleRecs(s, x) && (x in r.value.rules <==> x in s.rules)
    ensures forall x | x != e.key :: Lookup(r.value.options.rules, x) == Lookup(s.options.rules, x)
    ensures e.key in s.dom && ValidInputType(s.dom[e.key]) ==>
      e.key in r.value.rules && r.value.rules[e.key] == SetValidationRules(e.val)
    ensures e.key in s.dom && !ValidInputType(s.dom[e.key]) ==>
      !HasKey(r.value.options.rules, e.key) && r.value.rules == s.rules
    ensures forall en | en in r.value.options.rules :: en in s.options.rules
    ensures forall b | b in r.value.bindings :: b in s.bindings || b.target.Field?
  {
    if e.key !in s.dom then Run(s, Some(MissingElement(e.key)))
    else
      var el := s.dom[e.key];
      if !ValidInputType(el) then Run(s.(options := s.options.(rules := Delete(s.options.rules, e.key))), None)
      else
        Run(s.(rules := s.rules[e.key := SetValidationRules(e.val)],
               bindings := s.bindings + Handlers(s.options, Field(e.key), InputType(el))), None)
  }

  /** The loop of `setuprules`, over the rule entries still to visit,
      stopping at a throw. */
  function SetupFields(s: State, todo: Table<Table<Setting>>): (r: Run<State>)
    ensures r.value.dom == s.dom && r.value.errorList == s.errorList
    ensures forall en | en in r.value.options.rules :: en in s.options.rules
    ensures forall b | b in r.value.bindings :: b in s.bindings || b.target.Field?
    decreases |todo|
  {
    if |todo| == 0 then Run(s, None)
    else
      var r1 := SetupField(s, todo[0]);
      if r1.Threw() then r1 else SetupFields(r1.value, todo[1..])
  }

  /** A loop that does not throw found every id on the page. */
  lemma {:induction false} SetupFieldsFound(s: State, todo: Table<Table<Setting>>)
    requires !SetupFields(s, todo).Threw()
    ensures forall i | 0 <= i < |todo| :: todo[i].key in s.dom
    decreases |todo|
  {
    if |todo| > 0 {
      var r1 := SetupField(s, todo[0]);
      SetupFieldsFound(r1.value, todo[1..]);
      forall i | 1 <= i < |todo|
        ensures todo[i].key in s.dom
      {
        assert todo[i] == todo[1..][i - 1];
      }
    }
  }

  /** The loop touches neither the records nor the rules of an id it does
      not visit. */
  lemma {:induction false} SetupFieldsUntouched(s: State, todo: Table<Table<Setting>>, x: string)
    requires x !in Keys(todo)
    ensures var r := SetupFields(s, todo).value;
      && RuleRecs(r, x) == RuleRecs(s, x) && (x in r.rules <==> x in s.rules)
      && Lookup(r.options.rules, x) == Lookup(s.options.rules, x)
    decreases |todo|
  {
    if |todo| > 0 {
      assert x != Keys(todo)[0];
      assert Keys(todo[1..]) == Keys(todo)[1..];
      var r1 := SetupField(s, todo[0]);
      if !r1.Threw() {
        SetupFieldsUntouched(r1.value, todo[1..], x);
      }
    }
  }

  /** A loop whose ids are all on the page does not throw. */
  lemma {:induction false} SetupFieldsCompletes(s: State, todo: Table<Table<Setting>>)
    requires forall j | 0 <= j < |todo| :: todo[j].key in s.dom
    ensures !SetupFields(s, todo).Threw()
    decreases |todo|
  {
    if |todo| > 0 {
      var r1 := SetupField(s, todo[0]);
      assert forall j | 0 <= j < |todo| - 1 :: todo[1..][j] == todo[j + 1];
      SetupFieldsCompletes(r1.value, todo[1..]);
    }
  }

  /** When every id is on the page, every visited form control carries the
      records built from its entry, and every visited non-control has lost
      its rules and got no records. */
  lemma {:induction false} SetupFieldsControls(s: State, todo: Table<Table<Setting>>, i: nat)
    requires UniqueKeys(todo) && i < |todo|
    requires forall j | 0 <= j < |todo| :: todo[j].key in s.dom
    ensures var x := todo[i].key;
      var r := SetupFields(s, todo).value;
      && (ValidInputType(s.dom[x]) ==> x in r.rules && r.rules[x] == SetValidationRules(todo[i].val))
      && (!ValidInputType(s.dom[x]) ==> !HasKey(r.options.rules, x) && (x in r.rules <==> x in s.rules))
    decreases |todo|
  {
    var s1 := SetupField(s, todo[0]).value;
    assert UniqueKeys(todo[1..]) by {
      assert forall a | 0 <= a < |todo| - 1 :: todo[1..][a] == todo[a + 1];
    }
    if i == 0 {
      var x := todo[0].key;
      assert x !in Keys(todo[1..]) by {
        assert forall a | 0 <= a < |todo| - 1 :: Keys(todo[1..])[a] == todo[a + 1].key;
      }
      SetupFieldsUntouched(s1, todo[1..], x);
      assert Lookup(s1.options.rules, x).None? <==> !HasKey(s1.options.rules, x);
    } else {
      assert todo[1..][i - 1] == todo[i];
      assert forall j | 0 <= j < |todo| - 1 :: todo[1..][j] == todo[j + 1];
      SetupFieldsControls(s1, todo[1..], i - 1);
    }
  }

  /** A form before `setuprules`: no records, no bindings, an empty list. */
  function Fresh(o: Options, dom: map<string, Element>): State {
    State(o, dom, map[], [], [])
  }

  /** `setuprules` on a fresh instance: the loop, then the form's submit
      handler when `onsubmit` is set. */
  function Setup(o: Options, dom: map<string, Element>): (r: Run<State>)
    ensures r.value.dom == dom && r.value.errorList == []
    ensures r.value.rules == SetupFields(Fresh(o, dom), o.rules).value.rules
    ensures r.Threw() == SetupFields(Fresh(o, dom), o.rules).Threw()
    ensures !r.Threw() ==> (Binding(Form, Submit) in r.value.bindings <==> o.onsubmit)
  {
    var r := SetupFields(Fresh(o, dom), o.rules);
    if r.Threw() || !o.onsubmit then r
    else Run(r.value.(bindings := r.value.bindings + Handlers(r.value.options, Form, "submit")), None)
  }

  /** A setup that does not throw found every configured id on the page,
      and a field keeps its rules exactly when its element is a form
      control; the fields after a skipped one are still set up. */
  lemma SetupSkipsInvalidElement(o: Options, dom: map<string, Element>)
    requires UniqueKeys(o.rules) && !Setup(o, dom).Threw()
    ensures forall i | 0 <= i < |o.rules| ::
      var x := o.rules[i].key;
      x in dom && (ValidInputType(dom[x]) <==> x in Setup(o, dom).value.rules)
  {
    forall i | 0 <= i < |o.rules|
      ensures var x := o.rules[i].key; x in dom && (ValidInputType(dom[x]) <==> x in Setup(o, dom).value.rules)
    {
      SetupFieldsFound(Fresh(o, dom), o.rules);
      SetupFieldsControls(Fresh(o, dom), o.rules, i);
    }
  }
}

=== FILE: records.dfy ===
/** The configuration the user hands to `$.fn.validate` and the per-field
    records the plugin builds from it.

    A JavaScript object literal is an ordered table of distinct keys; it is
    modelled as a sequence of `Entry`s and `$.each` visits it front to back.
 */
module Records {
  import opened Results
  import opened Strings

  /** A value written in the configuration after a rule name: a string, a
      number, a two-number array (`rangeLength: [2, 8]`), or nothing. */
  datatype Setting = Undefined | Text(s: string) | Num(n: int) | Range(lo: int, hi: int)

  /** `'' + p`: how JavaScript concatenates the value into a message. */
  function Show(p: Setting): string {
    match p
    case Undefined => "undefined"
    case Text(s) => s
    case Num(n) => ShowInt(n)
    case Range(lo, hi) => ShowInt(lo) + "," + ShowInt(hi)
  }

  /** One `key: value` member of an object. */
  datatype Entry<V> = Entry(key: string, val: V)

  /** An object's own members in iteration order. */
  type Table<V> = seq<Entry<V>>

  predicate UniqueKeys<V>(t: Table<V>) {
    forall i, j | 0 <= i < j < |t| :: t[i].key != t[j].key
  }

  predicate HasKey<V>(t: Table<V>, k: string) {
    exists i | 0 <= i < |t| :: t[i].key == k
  }

  /** `t[k]`, None when `k` is not a member. */
  function Lookup<V>(t: Table<V>, k: string): (r: Option<V>)
    ensures r.Some? <==> HasKey(t, k)
    ensures r.Some? ==> exists i | 0 <= i < |t| :: t[i].key == k && t[i].val == r.value
  {
    if |t| == 0 then None
    else if t[0].key == k then Some(t[0].val)
    else
      var r := Lookup(t[1..], k);
      assert r.Some? ==> exists i | 0 <= i < |t| - 1 :: t[1..][i].key == k && t[1..][i].val == r.value;
      assert HasKey(t, k) ==> HasKey(t[1..], k) by {
        if HasKey(t, k) {
          var i :| 0 <= i < |t| && t[i].key == k;
          assert t[1..][i - 1].key == k;
        }
      }
      r
  }

  /** With distinct keys, looking up a member's key finds that member. */
  lemma {:induction false} LookupMember<V>(t: Table<V>, i: nat)
    requires UniqueKeys(t) && i < |t|
    ensures Lookup(t, t[i].key) == Some(t[i].val)
  {
    if i > 0 {
      assert t[1..][i - 1] == t[i];
      LookupMember(t[1..], i - 1);
    }
  }

  /** `delete t[k]`: the other members stay, in order. */
  function Delete<V>(t: Table<V>, k: string): (r: Table<V>)
    ensures !HasKey(r, k)
    ensures |r| <= |t|
    ensures forall j | 0 <= j < |r| :: r[j] in t
    ensures forall k' | k' != k :: Lookup(r, k') == Lookup(t, k')
    ensures !HasKey(t, k) ==> r == t
  {
    if |t| == 0 then []
    else if t[0].key == k then Delete(t[1..], k)
    else [t[0]] + Delete(t[1..], k)
  }

  /** `delete` works entry by entry: deleting from a concatenation deletes
      from each part, so the remaining members keep their order. */
  lemma {:induction false} DeleteAppend<V>(a: Table<V>, b: Table<V>, k: string)
    ensures Delete(a + b, k) == Delete(a, k) + Delete(b, k)
    decreases |a|
  {
    if |a| == 0 {
      assert a + b == b;
    } else {
      var c := a + b;
      assert c[1..] == a[1..] + b;
      DeleteAppend(a[1..], b, k);
    }
  }

  /** On one member: the member with the key goes, any other stays. */
  lemma DeleteOne<V>(e: Entry<V>, k: string)
    ensures Delete([e], k) == (if e.key == k then [] else [e])
  {
    assert [e][1..] == [];
  }

  /** The record `setValidationRules`/`setrules` stores for one rule: the
      configured value as the initial message, and not yet valid. */
  datatype RuleRecord = RuleRecord(name: string, message: Setting, valid: bool)

  /** A verification rule is configured as `[message, url]`. */
  datatype VerifySetting = VerifySetting(message: string, url: string)

  /** The record `setVerificationRules` stores for one verification rule. */
  datatype VerifyRecord = VerifyRecord(name: string, message: string, url: string, valid: bool, inprogress: bool)

  /** `setValidationRules` (and `setrules` in the earlier versions). */
  function SetValidationRules(rules: Table<Setting>): (r: seq<RuleRecord>)
    ensures |r| == |rules|
    ensures forall i | 0 <= i < |r| :: !r[i].valid
  {
    seq(|rules|, i requires 0 <= i < |rules| => RuleRecord(rules[i].key, rules[i].val, false))
  }

  /** The configuration a list of rule records was built from. */
  function RuleConfig(recs: seq<RuleRecord>): Table<Setting> {
    seq(|recs|, i requires 0 <= i < |recs| => Entry(recs[i].name, recs[i].message))
  }

  /** Building the records loses nothing: the names and the configured values
      can be read back, in order. */
  lemma RuleRecordsRoundTrip(rules: Table<Setting>)
    ensures RuleConfig(SetValidationRules(rules)) == rules
  {
  }

  /** `setVerificationRules`: message and url from the configured pair, not
      yet valid and not in progress. */
  function SetVerificationRules(rules: Table<VerifySetting>): (r: seq<VerifyRecord>)
    ensures |r| == |rules|
    ensures forall i | 0 <= i < |r| :: !r[i].valid && !r[i].inprogress
  {
    seq(|rules|, i requires 0 <= i < |rules| =>
      VerifyRecord(rules[i].key, rules[i].val.message, rules[i].val.url, false, false))
  }

  /** The configuration a list of verification records was built from. */
  function VerifyConfig(recs: seq<VerifyRecord>): Table<VerifySetting> {
    seq(|recs|, i requires 0 <= i < |recs| => Entry(recs[i].name, VerifySetting(recs[i].message, recs[i].url)))
  }

  /** Building the verification records loses nothing of the configuration. */
  lemma VerifyRecordsRoundTrip(rules: Table<VerifySetting>)
    ensures VerifyConfig(SetVerificationRules(rules)) == rules
  {
  }
}

=== FILE: results.dfy ===
/** Failure-carrying wrappers shared by every module of the model.

    The plugin never returns error values: its failures are JavaScript
    exceptions (`TypeError`) that escape from a `$.each` callback and abort
    whatever the caller was doing. Because the plugin mutates records in
    place, the effects performed before the throw survive it; `Run` therefore
    carries the state reached at the throw together with the fault.
 */
module Results {

  datatype Option<+T> = None | Some(value: T)

  /** The exceptions the plugin can raise, by cause. */
  datatype Fault =
    | UnknownRule(name: string)        // `this.validate[name]` is undefined and is called
    | MissingElement(id: string)       // `prop('tagName')` of an empty selection is undefined
    | NoRuleConfig(id: string)         // `this.options.rules[id]` is undefined when a rule is read
    | NoAjaxRecord(id: string)         // `data('verification').ajax` is undefined
    | IndexOfUndefined(rule: string)   // `parameter[0]` where the parameter is undefined
    | MalformedJson                    // `$.parseJSON` rejects the response body

  /** Result of a pure step that either yields a value or throws. */
  datatype Result<+T> = Ok(value: T) | Err(fault: Fault) {
    predicate IsFailure() { Err? }

    function PropagateFailure<U>(): Result<U>
      requires Err?
    {
      Err(fault)
    }

    function Extract(): T
      requires Ok?
    {
      value
    }
  }

  /** Result of a step over mutable state: the state reached, and the fault
      if the step was cut short by an exception. */
  datatype Run<+T> = Run(value: T, fault: Option<Fault>) {
    predicate Threw() { fault.Some? }
  }
}

=== FILE: strings.dfy ===
/** String primitives the plugin borrows from JavaScript and jQuery.

    Strings are `seq<char>` whose elements are Unicode scalar values. A
    JavaScript string is a sequence of UTF-16 code units, so `.length` is
    modelled by `Utf16Length`, which counts two units for every character
    outside the Basic Multilingual Plane.
 */
module Strings {
  import opened Results

  /** The characters `String.prototype.trim` (and so `$.trim`) strips:
      ECMAScript WhiteSpace (tab, vertical tab, form feed, space, no-break
      space, byte order mark, the Zs category) and LineTerminator. */
  predicate IsSpace(c: char) {
    || c == '\t' || c == '\n' || c == '\U{000B}' || c == '\U{000C}' || c == '\r'
    || c == ' ' || c == '\U{00A0}' || c == '\U{1680}'
    || ('\U{2000}' <= c <= '\U{200A}')
    || c == '\U{2028}' || c == '\U{2029}' || c == '\U{202F}' || c == '\U{205F}'
    || c == '\U{3000}' || c == '\U{FEFF}'
  }

  /** The characters the regular-expression class `\d` matches. */
  predicate IsDigit(c: char) {
    '0' <= c <= '9'
  }

  predicate AllDigits(s: string) {
    forall i | 0 <= i < |s| :: IsDigit(s[i])
  }

  /** Drops leading whitespace: what remains is a suffix of `s` and everything
      dropped was whitespace. */
  function TrimStart(s: string): (r: string)
    ensures |r| <= |s| && r == s[|s| - |r|..]
    ensures forall i | 0 <= i < |s| - |r| :: IsSpace(s[i])
    ensures |r| > 0 ==> !IsSpace(r[0])
  {
    if |s| > 0 && IsSpace(s[0]) then TrimStart(s[1..]) else s
  }

  /** Drops trailing whitespace: what remains is a prefix of `s` and everything
      dropped was whitespace. */
  function TrimEnd(s: string): (r: string)
    ensures |r| <= |s| && r == s[..|r|]
    ensures forall i | |r| <= i < |s| :: IsSpace(s[i])
    ensures |r| > 0 ==> !IsSpace(r[|r| - 1])
  {
    if |s| > 0 && IsSpace(s[|s| - 1]) then TrimEnd(s[..|s| - 1]) else s
  }

  /** `$.trim`. */
  function Trim(s: string): (r: string)
    ensures |r| > 0 ==> !IsSpace(r[0]) && !IsSpace(r[|r| - 1])
  {
    TrimEnd(TrimStart(s))
  }

  /** Trimming leaves something exactly when the string has a character that
      is not whitespace. */
  lemma TrimEmptyIff(s: string)
    ensures |Trim(s)| > 0 <==> exists i | 0 <= i < |s| :: !IsSpace(s[i])
  {
    var a := TrimStart(s);
    var r := TrimEnd(a);
    if |r| > 0 {
      var k := |s| - |a|;
      assert s[k] == a[0] == r[0];
      assert !IsSpace(s[k]);
    }
  }

  /** Number of UTF-16 code units of `c`. */
  function Utf16Units(c: char): nat {
    if c as int >= 0x1_0000 then 2 else 1
  }

  /** JavaScript's `.length`. */
  function Utf16Length(s: string): (n: nat)
    ensures |s| <= n <= 2 * |s|
    ensures n == 0 <==> |s| == 0
  {
    if |s| == 0 then 0 else Utf16Length(s[..|s| - 1]) + Utf16Units(s[|s| - 1])
  }

  /** The JavaScript length of a concatenation is the sum of the lengths. */
  lemma {:induction false} Utf16LengthAppend(a: string, b: string)
    ensures Utf16Length(a + b) == Utf16Length(a) + Utf16Length(b)
    decreases |b|
  {
    if |b| == 0 {
      assert a + b == a;
    } else {
      assert (a + b)[..|a + b| - 1] == a + b[..|b| - 1];
      Utf16LengthAppend(a, b[..|b| - 1]);
    }
  }

  /** One character counts one unit, or two outside the Basic Multilingual
      Plane (a surrogate pair). */
  lemma Utf16LengthOfChar(c: char)
    ensures Utf16Length([c]) == Utf16Units(c)
    ensures Utf16Length([c]) == 2 <==> c as int >= 0x1_0000
  {
    assert [c][..0] == [];
  }

  /** The JavaScript length equals the character count when every character
      lies in the Basic Multilingual Plane. */
  lemma {:induction false} Utf16LengthOfBmp(s: string)
    requires forall i | 0 <= i < |s| :: s[i] as int < 0x1_0000
    ensures Utf16Length(s) == |s|
  {
    if |s| > 0 {
      Utf16LengthOfBmp(s[..|s| - 1]);
    }
  }

  /** `value.replace(/\r/g, '')`: removes every carriage return and keeps the
      other characters in order. */
  function StripCR(s: string): (r: string)
    ensures '\r' !in r
    ensures |r| <= |s|
    ensures (forall i | 0 <= i < |s| :: s[i] != '\r') ==> r == s
  {
    if |s| == 0 then ""
    else if s[0] == '\r' then StripCR(s[1..])
    else [s[0]] + StripCR(s[1..])
  }

  /** Removal works piecewise: the result of a concatenation is the
      concatenation of the results, so the kept characters stay in order. */
  lemma {:induction false} StripCRAppend(a: string, b: string)
    ensures StripCR(a + b) == StripCR(a) + StripCR(b)
    decreases |a|
  {
    if |a| == 0 {
      assert a + b == b;
    } else {
      assert (a + b)[0] == a[0] && (a + b)[1..] == a[1..] + b;
      StripCRAppend(a[1..], b);
    }
  }

  /** On one character: a carriage return goes, anything else stays. */
  lemma StripCROfChar(c: char)
    ensures StripCR([c]) == (if c == '\r' then "" else [c])
  {
    assert [c][1..] == [];
  }

  function DigitChar(d: nat): (c: char)
    requires d < 10
    ensures IsDigit(c)
  {
    ('0' as int + d) as char
  }

  function DigitValue(c: char): (d: nat)
    requires IsDigit(c)
    ensures d < 10 && DigitChar(d) == c
  {
    (c as int - '0' as int) as nat
  }

  /** Decimal rendering of a non-negative number, as `String(n)` gives it for
      integers below 10^21: digits only, no leading zero. */
  function ShowNat(n: nat): (r: string)
    ensures |r| > 0 && AllDigits(r)
    ensures r[0] == '0' ==> n == 0
  {
    if n < 10 then [DigitChar(n)] else ShowNat(n / 10) + [DigitChar(n % 10)]
  }

  /** `String(n)` for an integer `n`. */
  function ShowInt(n: int): (r: string)
    ensures |r| > 0
    ensures r[0] == '-' <==> n < 0
  {
    if n < 0 then "-" + ShowNat(-n) else ShowNat(n)
  }

  /** Value of a string of decimal digits, read most significant first. */
  function ParseNat(s: string): nat
    requires AllDigits(s)
  {
    if |s| == 0 then 0 else ParseNat(s[..|s| - 1]) * 10 + DigitValue(s[|s| - 1])
  }

  /** Reading back a rendered number gives the number. */
  lemma {:induction false} ParseShowNat(n: nat)
    ensures ParseNat(ShowNat(n)) == n
  {
    var s := ShowNat(n);
    if n >= 10 {
      var p := ShowNat(n / 10);
      assert s[..|s| - 1] == p;
      ParseShowNat(n / 10);
    }
  }

  /** Distinct numbers render differently. */
  lemma ShowNatInjective(a: nat, b: nat)
    ensures ShowNat(a) == ShowNat(b) ==> a == b
  {
    ParseShowNat(a);
    ParseShowNat(b);
  }

  /** Distinct integers render differently. */
  lemma ShowIntInjective(a: int, b: int)
    ensures ShowInt(a) == ShowInt(b) ==> a == b
  {
    if ShowInt(a) == ShowInt(b) {
      if a < 0 {
        assert ShowInt(a)[1..] == ShowNat(-a);
        assert ShowInt(b)[1..] == ShowNat(-b);
        ShowNatInjective(-a, -b);
      } else {
        ShowNatInjective(a, b);
      }
    }
  }

  /** A rendered integer is a sign and digits: it holds no space. */
  lemma ShowIntNoSpace(n: int)
    ensures forall i | 0 <= i < |ShowInt(n)| :: ShowInt(n)[i] != ' '
  {
    var s := ShowInt(n);
    if n < 0 {
      assert forall i | 1 <= i < |s| :: s[i] == ShowNat(-n)[i - 1];
    }
  }

  /** The first space of `s + " " + x`, when `s` has none, is the one
      right after `s`. */
  lemma FirstSpaceAfter(s: string, x: string)
    requires forall i | 0 <= i < |s| :: s[i] != ' '
    ensures FirstIndex(s + (" " + x), ' ') == |s|
  {
    var w := s + (" " + x);
    assert w[|s|] == ' ';
    assert forall i | 0 <= i < |s| :: w[i] == s[i];
  }

  /** A rendered integer followed by a tail that starts with a space reads
      back apart: both the integer and the tail are determined. */
  lemma ShowIntSplit(a: int, b: int, x: string, y: string)
    requires ShowInt(a) + (" " + x) == ShowInt(b) + (" " + y)
    ensures a == b && x == y
  {
    var sa, sb := ShowInt(a), ShowInt(b);
    var w := sa + (" " + x);
    ShowIntNoSpace(a);
    ShowIntNoSpace(b);
    FirstSpaceAfter(sa, x);
    FirstSpaceAfter(sb, y);
    assert sa == w[..|sa|] == sb;
    ShowIntInjective(a, b);
    assert " " + x == w[|sa|..] == " " + y;
    assert x == (" " + x)[1..];
  }

  /** `Number(s)` for a string that is already trimmed, restricted to the
      integer forms: empty is 0; an optional sign followed by decimal digits
      is that integer; anything else is NaN (None). */
  function ParseIntText(s: string): (r: Option<int>)
    ensures r.Some? && |s| > 0 && AllDigits(s) ==> r.value == ParseNat(s)
    ensures (exists i | 0 <= i < |s| :: !IsDigit(s[i]) && s[i] != '-' && s[i] != '+') ==> r.None?
  {
    if |s| == 0 then Some(0)
    else if s[0] == '-' && |s| > 1 && AllDigits(s[1..]) then Some(0 - ParseNat(s[1..]))
    else if s[0] == '+' && |s| > 1 && AllDigits(s[1..]) then Some(ParseNat(s[1..]))
    else if AllDigits(s) then Some(ParseNat(s))
    else None
  }

  /** Rendering an integer and reading it back as `Number` does gives it back. */
  lemma ParseShowInt(n: int)
    ensures ParseIntText(ShowInt(n)) == Some(n)
  {
    var s := ShowInt(n);
    if n < 0 {
      assert s[1..] == ShowNat(-n);
      ParseShowNat(-n);
    } else {
      ParseShowNat(n);
      assert IsDigit(s[0]);
    }
  }

  /** Index of the first occurrence of `c` in `s`, or `|s|` when absent. */
  function FirstIndex(s: string, c: char): (i: nat)
    ensures i <= |s|
    ensures i < |s| ==> s[i] == c
    ensures forall j | 0 <= j < i :: s[j] != c
  {
    if |s| == 0 then 0
    else if s[0] == c then 0
    else 1 + FirstIndex(s[1..], c)
  }

  /** The pieces of `s` between occurrences of `c`; joining them with `c`
      gives `s` back. */
  function Split(s: string, c: char): (parts: seq<string>)
    ensures |parts| > 0
    ensures forall k | 0 <= k < |parts| :: c !in parts[k]
    ensures Join(parts, c) == s
    decreases |s|
  {
    var i := FirstIndex(s, c);
    if i == |s| then
      assert c !in s by {
        forall j | 0 <= j < |s| ensures s[j] != c { }
      }
      [s]
    else
      var head := s[..i];
      assert c !in head by {
        forall j | 0 <= j < |head| ensures head[j] != c { assert head[j] == s[j]; }
      }
      var rest := Split(s[i + 1..], c);
      assert s == head + [c] + s[i + 1..];
      [head] + rest
  }

  /** Inverse of `Split`. */
  function Join(parts: seq<string>, c: char): string
    requires |parts| > 0
  {
    if |parts| == 1 then parts[0] else parts[0] + [c] + Join(parts[1..], c)
  }
}

=== FILE: stub.dfy ===
/** The stub at `JsValidation/jquery.validation-0.2.0.js`: rules are stored
    and handlers bound, but `checkValidity` only logs, so the error list is
    never written, and the submit handler prevents submission exactly in
    debug mode, which is the default.
 */
module Stub {
  import opened Results
  import opened Records
  import opened ErrorLists
  import opened Forms

  /** The defaults of this version. It has no `highlight` option; the
      model's field is unused here. */
  const Defaults: Options := Options([], [], true, false, true, false,
                                     ["select", "checkbox"], ["text", "textarea"])

  /** The state of one bound form: `.data('rules')` per element. */
  datatype State = State(
    options: Options,
    dom: map<string, Element>,
    rules: map<string, seq<RuleRecord>>,
    errorList: seq<string>,
    bindings: seq<Binding>)

  /** `validinputtype`: `element.is('select, input, textarea')`. */
  predicate ValidInputType(e: Element) {
    e.tag in {"select", "input", "textarea"}
  }

  /** The stub accepts exactly the three control tags, a strict subset of
      what the later versions accept. */
  lemma ValidInputTypeNarrower(e: Element)
    ensures ValidInputType(e) <==> e.tag == "select" || e.tag == "input" || e.tag == "textarea"
    ensures ValidInputType(e) ==> Forms.ValidInputType(e)
    ensures !ValidInputType(Element("file", "", "")) && Forms.ValidInputType(Element("file", "", ""))
  {
  }

  // ------------------------------------------------------------ events

  /** `seteventhandler`. Membership is tested with `=== 0`, so a type binds
      only when it is the FIRST entry of the list; keyup is bound without
      blur. */
  function Handlers(o: Options, t: Target, kind: string): (bs: seq<Binding>)
    ensures Binding(t, Change) in bs <==> |o.onchangeElements| > 0 && o.onchangeElements[0] == kind
    ensures Binding(t, Keyup) in bs <==> |o.onkeyupElements| > 0 && o.onkeyupElements[0] == kind
    ensures Binding(t, Blur) !in bs
    ensures Binding(t, Submit) in bs <==> kind == "submit"
    ensures forall b | b in bs :: b.target == t
  {
    (if IndexOf(o.onchangeElements, kind) == 0 then [Binding(t, Change)] else [])
    + (if IndexOf(o.onkeyupElements, kind) == 0 then [Binding(t, Keyup)] else [])
    + (if kind == "submit" then [Binding(t, Submit)] else [])
  }

  /** With the default lists, only `select` gets a change handler and only
      `text` a keyup handler; `checkbox` and `textarea`, though listed, get
      none. */
  lemma DefaultHandlers(t: Target, kind: string)
    ensures Binding(t, Change) in Handlers(Defaults, t, kind) <==> kind == "select"
    ensures Binding(t, Keyup) in Handlers(Defaults, t, kind) <==> kind == "text"
    ensures Listed("checkbox", Defaults.onchangeElements) && Handlers(Defaults, t, "checkbox") == []
    ensures Listed("textarea", Defaults.onkeyupElements) && Handlers(Defaults, t, "textarea") == []
  {
    assert IndexOf(Defaults.onchangeElements, "checkbox") == 1;
    assert IndexOf(Defaults.onkeyupElements, "textarea") == 1;
  }

  // ------------------------------------------------------------ setup

  /** Index of the entry at which the setup loop stops: the first whose
      element is missing (a throw) or not a form control (`return false`
      ends `$.each`); `|todo|` when there is none. */
  function StopAt(dom: map<string, Element>, todo: Table<Table<Setting>>): (k: nat)
    ensures k <= |todo|
    ensures forall i | 0 <= i < k :: todo[i].key in dom && ValidInputType(dom[todo[i].key])
    ensures k < |todo| ==> todo[k].key !in dom || !ValidInputType(dom[todo[k].key])
    decreases |todo|
  {
    if |todo| == 0 then 0
    else if todo[0].key !in dom || !ValidInputType(dom[todo[0].key]) then 0
    else
      assert forall i | 1 <= i < |todo| :: todo[1..][i - 1] == todo[i];
      1 + StopAt(dom, todo[1..])
  }

  /** One visit of a form control: its rule records are stored and its
      handlers bound. */
  function Visit(s: State, e: Entry<Table<Setting>>): (r: State)
    requires e.key in s.dom
    ensures r.rules == s.rules[e.key := SetValidationRules(e.val)]
    ensures r.dom == s.dom && r.options == s.options && r.errorList == s.errorList
    ensures forall b | b in r.bindings :: b in s.bindings || b.target.Field?
  {
    s.(rules := s.rules[e.key := SetValidationRules(e.val)],
       bindings := s.bindings + Handlers(s.options, Field(e.key), InputType(s.dom[e.key])))
  }

  /** The loop of `setuprules`. Fields before the first bad element get
      their records and handlers; the loop stops there, and the
      configuration is never pruned. */
  function SetupFields(s: State, todo: Table<Table<Setting>>): (r: Run<State>)
    ensures r.value.dom == s.dom && r.value.options == s.options && r.value.errorList == s.errorList
    ensures r.Threw() <==> StopAt(s.dom, todo) < |todo| && todo[StopAt(s.dom, todo)].key !in s.dom
    ensures forall b | b in r.value.bindings :: b in s.bindings || b.target.Field?
    decreases |todo|
  {
    if |todo| == 0 then Run(s, None)
    else
      var id := todo[0].key;
      assert forall i | 1 <= i < |todo| :: todo[1..][i - 1] == todo[i];
      if id !in s.dom then Run(s, Some(MissingElement(id)))
      else if !ValidInputType(s.dom[id]) then Run(s, None)
      else
        var s1 := Visit(s, todo[0]);
        SetupFields(s1, todo[1..])
  }

  /** The ids of the entries before the stop, in order. */
  function Visited(dom: map<string, Element>, todo: Table<Table<Setting>>): (ks: seq<string>)
    ensures |ks| == StopAt(dom, todo)
    ensures forall i | 0 <= i < |ks| :: ks[i] == todo[i].key
    decreases |todo|
  {
    if |todo| == 0 || todo[0].key !in dom || !ValidInputType(dom[todo[0].key]) then []
    else
      var rest := Visited(dom, todo[1..]);
      assert forall i | 1 <= i < |todo| :: todo[1..][i - 1] == todo[i];
      [todo[0].key] + rest
  }

  /** The fields that receive records are exactly those before the stop. */
  lemma {:induction false} SetupFieldsKeys(s: State, todo: Table<Table<Setting>>, x: string)
    ensures x in SetupFields(s, todo).value.rules <==> x in s.rules || x in Visited(s.dom, todo)
    decreases |todo|
  {
    if |todo| > 0 && todo[0].key in s.dom && ValidInputType(s.dom[todo[0].key]) {
      var s1 := Visit(s, todo[0]);
      SetupFieldsKeys(s1, todo[1..], x);
    }
  }

  /** Each field before the stop holds the records built from its own
      configuration. */
  lemma {:induction false} SetupFieldsRecords(s: State, todo: Table<Table<Setting>>, i: nat)
    requires UniqueKeys(todo) && i < StopAt(s.dom, todo)
    ensures todo[i].key in SetupFields(s, todo).value.rules
    ensures SetupFields(s, todo).value.rules[todo[i].key] == SetValidationRules(todo[i].val)
    decreases |todo|
  {
    var id := todo[0].key;
    var s1 := Visit(s, todo[0]);
    var r := SetupFields(s1, todo[1..]).value;
    assert SetupFields(s, todo).value == r;
    if i == 0 {
      assert forall j | 0 <= j < |todo[1..]| :: todo[1..][j].key != id by {
        forall j | 0 <= j < |todo[1..]| ensures todo[1..][j].key != id {
          assert todo[1..][j] == todo[j + 1];
        }
      }
      SetupFieldsUntouched(s1, todo[1..], id);
    } else {
      assert todo[1..][i - 1] == todo[i];
      assert UniqueKeys(todo[1..]) by {
        forall a, b | 0 <= a < b < |todo[1..]| ensures todo[1..][a].key != todo[1..][b].key {
          assert todo[1..][a] == todo[a + 1] && todo[1..][b] == todo[b + 1];
        }
      }
      SetupFieldsRecords(s1, todo[1..], i - 1);
    }
  }

  /** A field the remaining entries do not name keeps its records. */
  lemma {:induction false} SetupFieldsUntouched(s: State, todo: Table<Table<Setting>>, x: string)
    requires x in s.rules
    requires forall j | 0 <= j < |todo| :: todo[j].key != x
    ensures x in SetupFields(s, todo).value.rules && SetupFields(s, todo).value.rules[x] == s.rules[x]
    decreases |todo|
  {
    if |todo| > 0 && todo[0].key in s.dom && ValidInputType(s.dom[todo[0].key]) {
      var id := todo[0].key;
      var s1 := Visit(s, todo[0]);
      assert forall j | 0 <= j < |todo[1..]| :: todo[1..][j] == todo[j + 1];
      SetupFieldsUntouched(s1, todo[1..], x);
    }
  }

  /** A form before `setuprules`: no records, no bindings, an empty list. */
  function Fresh(o: Options, dom: map<string, Element>): State {
    State(o, dom, map[], [], [])
  }

  /** `setuprules` on a fresh instance: the loop, then the form's submit
      handler when `onsubmit` is set. After an early stop the submit handler
      is still bound. */
  function Setup(o: Options, dom: map<string, Element>): (r: Run<State>)
    ensures r.value.dom == dom && r.value.options == o && r.value.errorList == []
    ensures r.value.rules == SetupFields(Fresh(o, dom), o.rules).value.rules
    ensures r.Threw() <==> StopAt(dom, o.rules) < |o.rules| && o.rules[StopAt(dom, o.rules)].key !in dom
    ensures !r.Threw() ==> (Binding(Form, Submit) in r.value.bindings <==> o.onsubmit)
  {
    var r := SetupFields(Fresh(o, dom), o.rules);
    if r.Threw() || !o.onsubmit then r
    else Run(r.value.(bindings := r.value.bindings + Handlers(r.value.options, Form, "submit")), None)
  }

  /** A field configured after the first element that is not a form
      control receives no rule records, though its id stays configured. */
  lemma SetupStopsAtInvalidElement(o: Options, dom: map<string, Element>, i: nat)
    requires UniqueKeys(o.rules) && !Setup(o, dom).Threw()
    requires StopAt(dom, o.rules) <= i < |o.rules|
    ensures o.rules[i].key !in Setup(o, dom).value.rules
    ensures HasKey(Setup(o, dom).value.options.rules, o.rules[i].key)
  {
    var x := o.rules[i].key;
    SetupFieldsKeys(Fresh(o, dom), o.rules, x);
    var ks := Visited(dom, o.rules);
    forall j | 0 <= j < |ks|
      ensures ks[j] != x
    {
      assert ks[j] == o.rules[j].key;
    }
  }

  // ------------------------------------------------------------ validation

  /** `checkValidity`: logs each rule and its record; nothing is evaluated
      and nothing stored. Iterating a missing element's records is taken as
      the no-op `$.each` performs on `undefined`. */
  function CheckValidity(s: State, id: string): State {
    s
  }

  /** `validation`: `checkValidity` for every configured id, then
      `formValid()`. */
  function Validation(s: State): (r: (State, bool)) {
    var after := CheckAll(s, Keys(s.options.rules));
    (after, FormValid(after.errorList))
  }

  function CheckAll(s: State, ids: seq<string>): State
    decreases |ids|
  {
    if |ids| == 0 then s else CheckAll(CheckValidity(s, ids[0]), ids[1..])
  }

  /** Checking any number of fields leaves the state, and so the error
      list, as it was. */
  lemma {:induction false} CheckAllUnchanged(s: State, ids: seq<string>)
    ensures CheckAll(s, ids) == s
    decreases |ids|
  {
    if |ids| > 0 {
      CheckAllUnchanged(CheckValidity(s, ids[0]), ids[1..]);
    }
  }

  /** `validation` reports the form valid exactly when the error list it
      was given is empty, whatever the fields hold: after a setup the list
      is empty, so every form is reported valid. */
  lemma ValidationIgnoresFields(s: State)
    ensures Validation(s).0 == s
    ensures Validation(s).1 <==> |s.errorList| == 0
    ensures forall o, dom | !Setup(o, dom).Threw() :: Validation(Setup(o, dom).value).1
  {
    CheckAllUnchanged(s, Keys(s.options.rules));
    forall o, dom | !Setup(o, dom).Threw()
      ensures Validation(Setup(o, dom).value).1
    {
      CheckAllUnchanged(Setup(o, dom).value, Keys(o.rules));
    }
  }

  // ------------------------------------------------------------ submit

  /** `onsubmit`: `preventDefault()` in debug mode, then `validation()`,
      whose verdict is discarded; nothing is returned. */
  function OnSubmit(s: State): (r: (State, Decision))
    ensures r.1.preventDefault <==> s.options.debug
    ensures !r.1.returnsFalse
    ensures r.0 == Validation(s).0
  {
    var v := Validation(s);
    (v.0, Decision(s.options.debug, false))
  }

  /** With the defaults a submission is always prevented. */
  lemma DefaultsBlockSubmission(s: State)
    requires s.options.debug == Defaults.debug
    ensures OnSubmit(s).1.preventDefault
  {
  }
}
